=== FILE: README.md ===
# kg-alzheimers core, modelled in Dafny

This project models the small pieces of kg-alzheimers that hold logic of their own, rather than
plumbing around the ETL frameworks:

- **The edge humaniser** (`scripts/make_humanized_graph.py`), module `Humanize`. It covers:
  - the column lookup by exact header name;
  - the three string rewriters for predicates, sources and categories (namespace stripping,
    `_` to space, CamelCase splitting, the English article);
  - the id→name and id→category maps built from the nodes file;
  - the per-row rewrite of the edges file, with its debug limit and its early failure.
- **The PubMed Central converter** (`scripts/convert_pmc_xml_to_text.py`), module `PmcText`. It covers:
  - the leftmost `PMC<digits>` in a file name, and the normalisation of the id found in the XML;
  - the precedence of the file-name id over the XML id;
  - duplicate detection as an insertion-ordered dictionary from PMC id to files;
  - which files are converted and under which output names;
  - the assembly of an article's plain text from its title, abstract, body sections and back-matter
    conclusions.
- **Four per-source row transforms**. Each one is a function from one input row to the sequence of
  entities it writes:
  - Alliance gene→phenotype (`AllianceGeneToPhenotype`);
  - dictyBase gene→phenotype (`DictybaseGeneToPhenotype`);
  - PomBase genes (`PombaseGene`);
  - Panther reference-genome orthologs (`RefGenomeOrthologs`).
- **The write sink** the transforms share (`Sink`). It is an append-in-order list, so a run over a
  row source is the concatenation of the per-row outputs in row order.

Supporting modules:
- `Wrappers` defines `Option` and `Result`.
- `Strings` holds Python's `str` operations as the scripts use them: `split` with a one-character
  separator (empty pieces kept), `split(':', 1)[1]`, `join`, `replace`, `in`, and ASCII `lower`.
- `Biolink` holds the gene, association and entity records.

Unseen collaborators are parameters of the model, as are the inputs the scripts read from files:
- `source_map`, `parse_gene` with its UniProt map, `parse_phenotypes` with its name map, and the
  translation table's orthology relation;
- the text of an article's `pmc` id element;
- the parsed article;
- the fresh `uuid1()` identifiers.

The Panther ortholog association sets the older `source` and `relation` fields and no
knowledge-source fields (monarch_ingest/orthology/ref_genome_orthologs.py:46-53). Unlike the
Alliance and dictyBase associations, it names neither `infores:monarchinitiative` as an aggregator
nor a primary knowledge source; `RefGenomeOrthologs.Transform` states that both stay unset.

## Model

| member | source | states |
|---|---|---|
| Humanize.FindColumnIndex | scripts/make_humanized_graph.py:12-17 | The result is -1 exactly when no header cell equals the name; otherwise it is the smallest position whose cell equals it. |
| Humanize.NodeColumnsOf | scripts/make_humanized_graph.py:89-103 | A nodes header without `id` fails first, then one without `name`; on success the positions hold `id` and `name`, and a category column is present exactly when the header has one. Each position is the first cell with that name. |
| Humanize.EdgeColumnsOf | scripts/make_humanized_graph.py:114-125 | Fails exactly when `subject`, `predicate` or `object` is missing; the source column is optional and present exactly when `primary_knowledge_source` is in the header. Each position is the first cell with that name. |
| Humanize.HumanizeSource | scripts/make_humanized_graph.py:30-34 | With a ':' the result is exactly the text after the first ':'; without one, the source is unchanged. |
| Humanize.SourceExample | scripts/make_humanized_graph.py:30-34 | `infores:pombase` becomes `pombase`. |
| Humanize.HumanizePredicate | scripts/make_humanized_graph.py:20-27 | The colon test comes first: a CURIE loses its namespace and contains no '_' afterwards; without a ':', a known id maps to its name and an unknown one is unchanged. |
| Humanize.PredicateExample | scripts/make_humanized_graph.py:22-24 | `biolink:has_phenotype` becomes `has phenotype` whatever the name map holds. |
| Humanize.SplitCamelIsSpacedHumps | scripts/make_humanized_graph.py:47 | The left-to-right regular-expression scan equals the position-by-position reading: every character kept, one space after each lower-case letter followed by an upper-case one. |
| Humanize.SplitCamel | scripts/make_humanized_graph.py:47 | The substitution lengthens the text by exactly the number of lower-then-upper pairs, one inserted space each. |
| Humanize.NoHumpsUnchanged | scripts/make_humanized_graph.py:47 | Text with no lower-then-upper pair is left as it is. |
| Humanize.SplitCamelAtHump | scripts/make_humanized_graph.py:47 | Two words meeting at a lower-then-upper boundary get exactly one space between them. |
| Humanize.HumanizeCategory | scripts/make_humanized_graph.py:37-53 | An empty category gives the empty string; the call fails exactly when the category is non-empty but empty once its namespace is dropped; otherwise the result starts with `an ` exactly when the text starts with a vowel, and with `a ` otherwise. |
| Humanize.HumanizedCategoryIsLowerCase | scripts/make_humanized_graph.py:47-53 | A humanised category has no upper-case ASCII letter. |
| Humanize.TwoWordCategory | scripts/make_humanized_graph.py:42-47 | `ns:FirstSecond`, for two hump-free words that meet at a lower-then-upper boundary, reads as `first second` in lower case. |
| Humanize.ConsonantCategory | scripts/make_humanized_graph.py:49-53 | A category whose text starts with a consonant becomes `a ` followed by the text. |
| Humanize.NamespaceOnlyCategoryFails | scripts/make_humanized_graph.py:42-50 | `biolink:` makes the script fail at `category[0]`. |
| Humanize.NamedIffDefined | scripts/make_humanized_graph.py:145-156 | An id is in the name map exactly when some row is long enough for the id and name columns and carries that non-empty id. |
| Humanize.NameFromLastDefiningRow | scripts/make_humanized_graph.py:145-156 | A later row with the same id overwrites an earlier one: the name comes from the last such row. |
| Humanize.CategorizedIffSomeRow | scripts/make_humanized_graph.py:150-158 | An id has a category exactly when some defining row gives it a non-empty category cell. |
| Humanize.CategoryFromLastCategorizingRow | scripts/make_humanized_graph.py:150-158 | The recorded category is the one from the last row that gives a non-empty one; a later empty cell does not erase it. |
| Humanize.AddNode | scripts/make_humanized_graph.py:146-158 | Reading a row never removes a name or a category, and keeps every recorded category non-empty and attached to a named id. |
| Humanize.BuildNodeMaps | scripts/make_humanized_graph.py:142-158 | After the whole nodes file, every recorded category is non-empty and belongs to an id that also has a name. |
| Humanize.NodeLabel | scripts/make_humanized_graph.py:197-212 | A node is labelled by its name, or its raw id when unnamed; ` (<humanised category>)` is appended exactly for nodes with a recorded category, and a failing category fails the label. |
| Humanize.HumanizeEdge | scripts/make_humanized_graph.py:191-223 | A row too short for the subject, predicate and object columns writes nothing; a wide enough row that does not fail always writes one output row. That row holds the subject label, the humanised predicate, the object label, and the humanised source when the file and the row have one. The step fails exactly when one of the two labels fails. |
| Humanize.WideRowWritten | scripts/make_humanized_graph.py:191-223 | A row that does not fail writes one output row when it is wide enough for the subject, predicate and object columns, and none otherwise. |
| Humanize.EmittedCountsRows | scripts/make_humanized_graph.py:187-225 | Any per-row step that writes one row per wide row and none per short row writes, over the loop, exactly as many rows as there are wide rows. |
| Humanize.EmittedCountsWideRows | scripts/make_humanized_graph.py:187-225 | When no row fails, the output has exactly one row per input row wide enough for the subject, predicate and object columns. |
| Humanize.HumanizeEdges | scripts/make_humanized_graph.py:181-225 | The loop reads every row, or at most `debug_limit` rows when that is positive, short rows included. It writes what the rows before the stop produce, in order. A failure can only come from a row within the limit, and the loop stops there. |
| Humanize.HumanizeGraph | scripts/make_humanized_graph.py:89-225 | A missing required column ends the run with the matching error and no output. Otherwise the output is the header (with `source` exactly when the edges file has a source column) followed by the rows the edge loop writes over the node maps. A failing row lies within the debug limit. Without a failure there is one output row per wide edge row read. |
| PmcText.PmcIdFromFilename | scripts/convert_pmc_xml_to_text.py:23-26 | None exactly when the name has no `PMC` followed by a digit; otherwise `PMC` plus the longest run of digits at the leftmost such position. |
| PmcText.FilenameIdRoundTrip | scripts/convert_pmc_xml_to_text.py:23-26 | A name made of text without a match, `PMC` plus digits, and text not starting with a digit yields exactly `PMC` plus those digits. |
| PmcText.NormalizeXmlId | scripts/convert_pmc_xml_to_text.py:37-40 | The result always starts with `PMC`; it equals the element text exactly when that text already starts with `PMC`; the text is always its suffix. |
| PmcText.NormalizeIdempotent | scripts/convert_pmc_xml_to_text.py:38-39 | Normalising an id twice is normalising it once. |
| PmcText.XmlPmcId | scripts/convert_pmc_xml_to_text.py:28-45 | The XML yields an id exactly when the id element was found and read; that id is the normalised element text. |
| PmcText.Basename | scripts/convert_pmc_xml_to_text.py:126 | The last path component contains no '/', ends the path, and is preceded by a '/' unless it is the whole path. |
| PmcText.Stem | scripts/convert_pmc_xml_to_text.py:200 | The stem is a prefix of the name. When it differs, a '.' follows it, no '.' comes later, and the dot is neither first nor last. When the stem is the whole name, no '.' appears after the first character, or the name ends in '.'. |
| PmcText.PmcIdOf | scripts/convert_pmc_xml_to_text.py:125-130 | The file-name id takes precedence; the XML is consulted only when the file name has none; any id found starts with `PMC`. |
| PmcText.AddFile | scripts/convert_pmc_xml_to_text.py:132-137 | A file with an id always ends up under that key, and the key order keeps listing every key exactly once. |
| PmcText.DetectDuplicates | scripts/convert_pmc_xml_to_text.py:121-137 | After the scan, the key order lists every key of the dictionary exactly once. |
| PmcText.DetectDuplicatesKeys | scripts/convert_pmc_xml_to_text.py:121-137 | Keys are listed once each, the key order and the dictionary agree, and the keys are exactly the ids that occur among the files. |
| PmcText.DetectDuplicatesGroups | scripts/convert_pmc_xml_to_text.py:124-137 | Each group is exactly the files with its id, in input order; the files without an id are exactly those, in input order. |
| PmcText.DetectDuplicatesContents | scripts/convert_pmc_xml_to_text.py:121-137 | The dictionary's keys are distinct and exactly the ids that occur; each key's list is exactly the files with that id, in input order; the files without an id are exactly the rest, in input order. |
| PmcText.FileLandsOnce | scripts/convert_pmc_xml_to_text.py:124-137 | A file with an id is in the group of that id, in no other group, and not among the files without an id. A file without an id is among those files and in no group. |
| PmcText.AddFileAddsOne | scripts/convert_pmc_xml_to_text.py:132-137 | Reading one file into a well-formed dictionary adds exactly that file to the multiset of all listed files. |
| PmcText.AddToGroup | scripts/convert_pmc_xml_to_text.py:133-135 | Appending a file to an existing key's list adds exactly that file to the multiset of listed files. |
| PmcText.AddNewGroup | scripts/convert_pmc_xml_to_text.py:133-135 | Opening a new key with a file adds exactly that file to the multiset of listed files. |
| PmcText.AddWithoutId | scripts/convert_pmc_xml_to_text.py:136-137 | Recording a file without an id adds exactly that file to the multiset of listed files. |
| PmcText.DetectDuplicatesPartitions | scripts/convert_pmc_xml_to_text.py:124-137 | No file is dropped or duplicated: the grouped files and the files without an id together are the input, as a multiset. |
| PmcText.KeysInFirstAppearanceOrder | scripts/convert_pmc_xml_to_text.py:132-135 | For any two keys, some file with the earlier key comes before every file with the later one. |
| PmcText.SelectFiles | scripts/convert_pmc_xml_to_text.py:163-183 | With duplicate handling off, every file is processed in input order; with it on, one file per key. |
| PmcText.SelectedFiles | scripts/convert_pmc_xml_to_text.py:176-181 | With duplicate handling, every processed file has an id, no two share one, and every id that occurs is processed. Each processed file is the first input file with its id. |
| PmcText.SelectedIdsDistinct | scripts/convert_pmc_xml_to_text.py:176-179 | With duplicate handling, the k-th processed file has the k-th key of the dictionary as its id, so no two processed files share an id. |
| PmcText.SelectedCoversIds | scripts/convert_pmc_xml_to_text.py:176-179 | With duplicate handling, every id that occurs among the input files is the id of some processed file. |
| PmcText.SelectedAreFirst | scripts/convert_pmc_xml_to_text.py:176-179 | With duplicate handling, each processed file is an input file that no earlier input file shares its id with. |
| PmcText.OutputStem | scripts/convert_pmc_xml_to_text.py:193-200 | The output stem is the file-name id, else the XML id, else the file's own stem. |
| PmcText.Convert | scripts/convert_pmc_xml_to_text.py:191-208 | One output per processed file, in order, named by its output stem plus `.txt` and holding the article's extracted text. |
| PmcText.OutputNamesDistinct | scripts/convert_pmc_xml_to_text.py:176-206 | With duplicate handling no two outputs share a name, and every output name starts with `PMC`. |
| PmcText.RenderSection | scripts/convert_pmc_xml_to_text.py:83-86 | A section whose header starts with `#` renders to text starting with `#`. With paragraphs, the text opens with the header, a line break and the first paragraph; a single paragraph is exactly that. |
| PmcText.RenderSectionAppend | scripts/convert_pmc_xml_to_text.py:86 | One more paragraph adds a blank line and that paragraph to the end of the rendered section. |
| PmcText.PartsAppend | scripts/convert_pmc_xml_to_text.py:81-97 | Rendering a list of sections is rendering its parts one after the other. |
| PmcText.BodyKeepsSectionsWithParagraphs | scripts/convert_pmc_xml_to_text.py:79-86 | The stretch of the collected sections after the title and abstract and before the back matter holds exactly the body sections that have paragraphs, each under `## ` plus its title or `## Section`. |
| PmcText.BackMatterKeepsConclusions | scripts/convert_pmc_xml_to_text.py:89-97 | The collected sections after the body's hold exactly the back-matter sections that have a title containing `conclusion` in any letter case and have paragraphs, each under `## ` plus its title. |
| PmcText.CollectedOrder | scripts/convert_pmc_xml_to_text.py:64-97 | The collected sections are the title part, the abstract part, the body's parts, then the back matter's, in that order and with nothing else. |
| PmcText.CollectedMember | scripts/convert_pmc_xml_to_text.py:64-97 | A text is collected exactly when it is the title part, the abstract part, a body section with paragraphs, or a conclusion section with paragraphs. |
| PmcText.AbstractPart | scripts/convert_pmc_xml_to_text.py:71-76 | The abstract contributes one part exactly when it has paragraphs, opening with `# Abstract`, a line break and the first paragraph; a single paragraph is exactly that. |
| PmcText.AbstractAppend | scripts/convert_pmc_xml_to_text.py:76 | One more abstract paragraph adds a single space and that paragraph to the end of the abstract part. |
| PmcText.BodySectionHeaded | scripts/convert_pmc_xml_to_text.py:79-86 | Every part a body section contributes is non-empty and starts with `#`, under its title or `## Section`. |
| PmcText.BackSectionHeaded | scripts/convert_pmc_xml_to_text.py:89-97 | Every part a back-matter section contributes is non-empty and starts with `#`. |
| PmcText.PartsHashHeaded | scripts/convert_pmc_xml_to_text.py:79-97 | When each section renders to parts starting with `#`, so does the whole list of sections. |
| PmcText.CollectSections | scripts/convert_pmc_xml_to_text.py:64-97 | Every collected section is non-empty and starts with `#`. |
| PmcText.ExtractText | scripts/convert_pmc_xml_to_text.py:57-99 | A parse error gives `Error parsing XML: ` followed by the parser's message. For a parsed article, the text is `No content extracted` exactly when no section was collected, and otherwise the collected sections joined by blank lines. A title, when present, opens the text as `# Title` followed by the title. |
| PmcText.ExtractTextExample | scripts/convert_pmc_xml_to_text.py:64-99 | A worked article: an untitled body section is headed `## Section`; a body section without paragraphs and a back-matter section not titled as a conclusion are dropped; abstract paragraphs are joined by a space, section paragraphs and sections by a blank line. |
| AllianceGeneToPhenotype.PhenotypeId | monarch_ingest/ingests/alliance/gene_to_phenotype.py:34-36 | An id is left unchanged exactly when it does not contain `WB:WBPhenotype:`. |
| AllianceGeneToPhenotype.NestedWormIdRewritten | monarch_ingest/ingests/alliance/gene_to_phenotype.py:36 | `WB:WBPhenotype:0000123` becomes `WBPhenotype:0000123`. |
| AllianceGeneToPhenotype.NestedPrefixRewritten | monarch_ingest/ingests/alliance/gene_to_phenotype.py:36 | An id `WB:WBPhenotype:` followed by text in which that prefix does not recur becomes `WBPhenotype:` followed by the same text. |
| AllianceGeneToPhenotype.CuriePrefix | monarch_ingest/ingests/alliance/gene_to_phenotype.py:32 | The namespace has no ':'; with a ':' it is the text before the first one; without one, it is the whole id. |
| AllianceGeneToPhenotype.ConditionTerms | monarch_ingest/ingests/alliance/gene_to_phenotype.py:54-57 | One relation yields at most one qualifier per condition, and never one with an empty id. |
| AllianceGeneToPhenotype.ConditionTermsSingle | monarch_ingest/ingests/alliance/gene_to_phenotype.py:55-57 | One condition yields the term of its class id when that id is set and non-empty, and nothing otherwise. |
| AllianceGeneToPhenotype.ConditionTermsAppend | monarch_ingest/ingests/alliance/gene_to_phenotype.py:54-57 | Terms keep the order of their conditions: the terms of two condition lists in a row are the first list's terms followed by the second's. |
| AllianceGeneToPhenotype.Qualifiers | monarch_ingest/ingests/alliance/gene_to_phenotype.py:51-59 | No qualifier has an empty id. |
| AllianceGeneToPhenotype.Transform | monarch_ingest/ingests/alliance/gene_to_phenotype.py:30-61 | A row writes exactly one entity when its gene is in the gene map and it names exactly one phenotype, and nothing otherwise. The entity is the association with every field as the script sets it; qualifiers are set exactly when condition relations are present. Knowledge level, agent type, `source` and `relation` stay unset. |
| AllianceGeneToPhenotype.ConditionTermsMember | monarch_ingest/ingests/alliance/gene_to_phenotype.py:54-57 | A term comes from one relation's conditions exactly when some condition names it as a non-empty class id. |
| AllianceGeneToPhenotype.QualifiersMember | monarch_ingest/ingests/alliance/gene_to_phenotype.py:51-59 | A term is a qualifier exactly when some condition of some relation names it as a non-empty class id. |
| AllianceGeneToPhenotype.QualifiersAppend | monarch_ingest/ingests/alliance/gene_to_phenotype.py:53-57 | Qualifiers keep the order of their relations; with ConditionTermsAppend, ConditionTermsSingle and QualifiersSingle this fixes the nested iteration order. |
| AllianceGeneToPhenotype.QualifiersSingle | monarch_ingest/ingests/alliance/gene_to_phenotype.py:53-57 | One relation yields exactly its conditions' terms. |
| AllianceGeneToPhenotype.NoClassIdsNoQualifiers | monarch_ingest/ingests/alliance/gene_to_phenotype.py:55-59 | Relations whose conditions all lack a usable class id give an empty qualifier list. |
| AllianceGeneToPhenotype.SingleTermExample | monarch_ingest/ingests/alliance/gene_to_phenotype.py:30-61 | A known gene with one nested WormBase phenotype writes one has-phenotype edge with the rewritten object, the publication, and no qualifiers. |
| AllianceGeneToPhenotype.TwoTermsWriteNothing | monarch_ingest/ingests/alliance/gene_to_phenotype.py:26-30 | A record with two phenotype terms writes nothing. |
| AllianceGeneToPhenotype.RunInvariant | monarch_ingest/ingests/alliance/gene_to_phenotype.py:30-61 | Every entity a run writes is a has-phenotype edge with a `uuid:` id, a subject from the gene map, and Monarch among its aggregators. The run writes nothing exactly when no row is accepted. |
| DictybaseGeneToPhenotype.GeneIdentifiers | src/kg_alzheimers/ingests/dictybase/gene_to_phenotype.py:18 | There is one identifier per separator plus one; each is `dictyBase:` followed by a piece without '|'. |
| DictybaseGeneToPhenotype.GeneIdentifiersRoundTrip | src/kg_alzheimers/ingests/dictybase/gene_to_phenotype.py:18 | Stripping the prefix and joining with '|' gives the column back, so empty pieces are kept. |
| DictybaseGeneToPhenotype.Transform | src/kg_alzheimers/ingests/dictybase/gene_to_phenotype.py:18-40 | A multi-gene row writes nothing. A single-gene row writes one association per parsed phenotype, in order, each with every field the script sets. Publications, qualifiers, `source` and `relation` stay unset. |
| DictybaseGeneToPhenotype.RunSize | src/kg_alzheimers/ingests/dictybase/gene_to_phenotype.py:14-40 | A run writes as many associations as the single-gene rows list phenotypes. |
| DictybaseGeneToPhenotype.RunInvariant | src/kg_alzheimers/ingests/dictybase/gene_to_phenotype.py:14-40 | Every entity a run writes is a dictyBase has-phenotype association aggregated by Monarch, with a `uuid:` id and a single-gene subject. |
| PombaseGene.GeneOf | src/monarch_ingest/ingests/pombase/gene.py:13-30 | The gene has id `curie`, symbol and name the systematic id, the fission yeast taxon, and PomBase as provider. The cross-reference is set exactly when an accession is given. The synonyms are the comma-split field: they join back to the field, there is one per comma plus one, and an empty field gives `[""]`. The `source` attribute stays unset. |
| PombaseGene.Transform | src/monarch_ingest/ingests/pombase/gene.py:32 | A row writes exactly one gene node, with the row's curie. |
| PombaseGene.RunOneGenePerRow | src/monarch_ingest/ingests/pombase/gene.py:11-32 | A run writes exactly one gene per row, the i-th gene for the i-th row. |
| PombaseGene.SynonymsKeepEmptyPieces | src/monarch_ingest/ingests/pombase/gene.py:21-30 | `a,,b` gives the synonyms `a`, `` and `b`; an empty accession leaves the cross-reference unset. |
| RefGenomeOrthologs.Transform | monarch_ingest/orthology/ref_genome_orthologs.py:22-56 | A row writes three entities exactly when both the gene and the ortholog resolve, and nothing otherwise. The three are the gene, the ortholog, then the orthology association between the resolved ids. The association has the Panther source, the relation and a `uuid:` id. Its aggregators, primary knowledge source, publications, qualifiers, knowledge level and agent type stay unset. Each gene node sets only its id, taxon and `infores:entrez` source; symbol, name, synonyms, provider and cross-references stay unset. |
| RefGenomeOrthologs.RunInvariant | monarch_ingest/orthology/ref_genome_orthologs.py:22-56 | Every edge a run writes links the resolved gene and ortholog of some row and carries the Panther source; the run writes nothing exactly when no row resolves on both sides. |
| Sink.Run | tests/conftest.py:19-23 | Nothing is in the sink that some row did not write. |
| Sink.RunExtend | tests/conftest.py:19-23 | Writing one more row's entities appends them and keeps everything written before. |
| Sink.RunEmptyIff | tests/conftest.py:73-75 | The sink is empty after a run exactly when no row wrote anything. |
| Sink.RunMember | tests/conftest.py:19-23 | An entity is in the sink exactly when some row wrote it. |
| Sink.RunOfSingletons | tests/conftest.py:19-23 | When every row writes one entity, the i-th entity in the sink is the i-th row's. |
| Sink.Drive | tests/conftest.py:19-23 | The row loop's sink after the last row is the concatenation of the per-row outputs in order. |
| Strings.IndexOf | scripts/make_humanized_graph.py:24 | The position holds the character, and no earlier position does. |
| Strings.Split | src/monarch_ingest/ingests/pombase/gene.py:21 | Splitting gives at least one piece, and no piece contains the separator. |
| Strings.SplitCount | src/kg_alzheimers/ingests/dictybase/gene_to_phenotype.py:18 | Splitting gives one piece per separator plus one. |
| Strings.JoinAppend | scripts/convert_pmc_xml_to_text.py:99 | Joining one more part adds the separator and that part to the end. |
| Strings.JoinSplit | src/monarch_ingest/ingests/pombase/gene.py:21 | Joining the pieces with the separator gives the text back. |
| Strings.SplitJoin | src/monarch_ingest/ingests/pombase/gene.py:30 | Splitting the join of separator-free pieces gives the pieces back. |
| Strings.After | scripts/make_humanized_graph.py:33 | The text is everything before the first ':', then the ':', then the result. |
| Strings.ReplaceAll | monarch_ingest/ingests/alliance/gene_to_phenotype.py:36 | Text without the pattern is unchanged; a shorter replacement never lengthens the text and strictly shortens it when the pattern occurs. |
| Strings.ReplaceAtFirst | monarch_ingest/ingests/alliance/gene_to_phenotype.py:36 | The text before the first occurrence is kept, that occurrence becomes the replacement, and the scan resumes right after it. |
| Strings.ReplaceChar | scripts/make_humanized_graph.py:24 | Every occurrence of the character is replaced and every other character kept. |
| Strings.Lower | scripts/make_humanized_graph.py:47 | Lower-casing keeps the length and maps each character on its own, leaving no upper-case ASCII letter. |

## Left out

- File and directory work is not modelled; the model takes file contents as already read. This covers CSV reading and writing, `os.walk`, `Path.mkdir`, file existence checks, `print`, logging, `argparse`, and `sys.exit`. Parsing the debug limit from the command line is left out too.
- `uuid.uuid1()` is not modelled. Identifiers are parameters (`uuid`, `uuids(i)`, `uuids(i)(k)`), so only the `uuid:` prefix is claimed.
- `source_map`, `parse_gene` with its UniProt map, `parse_phenotypes` with its name map, and the translation table are not part of this model. They are function or value parameters with no behaviour of their own.
- AllianceGeneToPhenotype.Transform: `source_map` is a total function parameter. The `KeyError` raised for an unknown namespace is not modelled.
- AllianceGeneToPhenotype.Transform: rows are typed records, so a missing key is not modelled. In the script a missing key raises `KeyError`; this covers `objectId`, `phenotypeTermIdentifiers`, `termId`, `evidence.publicationId`, a relation's `conditions` and a condition's `conditionClassId`. A null or empty class id is modelled.
- AllianceGeneToPhenotype.Transform: the association's subject is the id of the `Gene` object the script passes. The `Gene` and `PhenotypicFeature` objects themselves are not written, so they are not modelled.
- RefGenomeOrthologs.Transform: the predicate enumeration member is the string `orthologous_to`. The scalar `in_taxon` is stored as a one-element list, because the gene record holds a list.
- The biolink pydantic constructors are plain records with no validation.
- Letter case and character classes are ASCII only, for `.lower()`, `[a-z]`, `[A-Z]` and `\d`. Unicode case mapping and non-ASCII digits are not modelled.
- Strings.ReplaceAll requires a non-empty pattern. The script's pattern is the fixed non-empty `WB:WBPhenotype:`.
- PmcText.XmlPmcId: BeautifulSoup parsing, including `get_text(strip=True)`, is not modelled. The element's text is a parameter, and a read or parse failure is `None`.
- PmcText.Convert: the article's title, abstract paragraphs and top-level sections are a parsed `Article` parameter, or the parser's error message. Both the duplicate scan and the naming step read the XML id through the same function, so the model treats reading it as deterministic.
- PmcText.Convert: per-file exceptions during conversion, and the success and failure counters, are not modelled.
- PmcText.Stem follows the long-standing `pathlib` rule: the suffix starts at the last '.', provided that dot is neither the first nor the last character.
- `monarch_ingest/ingest_pipeline.py` is not part of this model. It is orchestration and downloads, and its real behaviour lives in external tools.
- `src/kg_alzheimers/ingests/bgee/gene_to_expression.py` is not part of this model. It wraps an unseen framework call.
- `src/monarch_ingest/utils/log_utils.py` is not part of this model. It only configures logging.
- The HGNC, PomBase phenotype and ZFIN transforms are not modelled. From `tests/conftest.py`, only the sink's append-in-order semantics is modelled.

=== FILE: alliance.dfy ===
/** The Alliance gene-to-phenotype ingest: one record per (gene, phenotype
    annotation). Only genes listed in the Alliance gene map, and only
    annotations with exactly one phenotype term, become an association. */
module AllianceGeneToPhenotype {
  import opened Wrappers
  import opened Strings
  import opened Biolink
  import Sink

  datatype PhenotypeTerm = PhenotypeTerm(termId: string)

  /** An experimental condition; its class id may be null or empty. */
  datatype Condition = Condition(conditionClassId: Option<string>)

  datatype ConditionRelation = ConditionRelation(conditions: seq<Condition>)

  /** One record of the Alliance phenotype file. `conditionRelations` is
      `None` both when the key is absent and when its value is null. */
  datatype Row = Row(
    objectId: string,
    phenotypeTermIdentifiers: seq<PhenotypeTerm>,
    publicationId: string,
    conditionRelations: Option<seq<ConditionRelation>>)

  const AllianceInfores: string := "infores:alliancegenome"
  const NestedWormPrefix: string := "WB:WBPhenotype:"
  const WormPrefix: string := "WBPhenotype:"

  /** The phenotype id with WormBase's doubled prefix rewritten. An id is
      left alone exactly when it does not contain the doubled prefix. */
  function PhenotypeId(termId: string): (r: string)
    ensures r == termId <==> !HasSubstring(termId, NestedWormPrefix)
  {
    ReplaceAll(termId, NestedWormPrefix, WormPrefix)
  }

  /** The namespace of a CURIE: the text before its first ':', or the whole
      id when it has none. */
  function CuriePrefix(id: string): (r: string)
    ensures ':' !in r
    ensures ':' in id ==> id == r + [':'] + After(id, ':')
    ensures ':' !in id ==> r == id
  {
    Split(id, ':')[0]
  }

  /** Python truthiness of a condition class id. */
  predicate Truthy(v: Option<string>) {
    v.Some? && v.value != ""
  }

  /** The qualifier terms of one relation's conditions, in order. */
  function ConditionTerms(conditions: seq<Condition>): (r: seq<OntologyClass>)
    ensures |r| <= |conditions|
    ensures forall k :: 0 <= k < |r| ==> r[k].id != ""
  {
    if |conditions| == 0 then []
    else
      (if Truthy(conditions[0].conditionClassId) then [OntologyClass(conditions[0].conditionClassId.value)] else [])
      + ConditionTerms(conditions[1..])
  }

  /** The qualifier terms of all relations, in nested iteration order. */
  function Qualifiers(relations: seq<ConditionRelation>): (r: seq<OntologyClass>)
    ensures forall k :: 0 <= k < |r| ==> r[k].id != ""
  {
    if |relations| == 0 then []
    else ConditionTerms(relations[0].conditions) + Qualifiers(relations[1..])
  }

  /** The row filter: the subject must be a known gene and the annotation
      must name exactly one phenotype. */
  predicate Accepted(row: Row, geneIds: set<string>) {
    row.objectId in geneIds && |row.phenotypeTermIdentifiers| == 1
  }

  /** What one row writes. The gene and phenotype nodes the script builds
      are not written; only the association is. */
  function Transform(row: Row, geneIds: set<string>, sourceMap: string -> string, uuid: string): (written: seq<Entity>)
    ensures |written| <= 1
    ensures |written| == 1 <==> row.objectId in geneIds && |row.phenotypeTermIdentifiers| == 1
    ensures |written| == 1 ==>
      && written[0].Edge?
      && var a := written[0].association;
      && a.id == UuidPrefix + uuid
      && a.subject == row.objectId
      && a.pred == HasPhenotype
      && a.obj == PhenotypeId(row.phenotypeTermIdentifiers[0].termId)
      && a.publications == Some([row.publicationId])
      && a.aggregatorKnowledgeSource == Some([MonarchInfores, AllianceInfores])
      && a.primaryKnowledgeSource == Some(sourceMap(CuriePrefix(row.objectId)))
      && (a.qualifiers.Some? <==> row.conditionRelations.Some?)
      && (row.conditionRelations.Some? ==> a.qualifiers == Some(Qualifiers(row.conditionRelations.value)))
      && a.knowledgeLevel == None && a.agentType == None
      && a.source == None && a.relation == None
  {
    if Accepted(row, geneIds) then
      var source := sourceMap(CuriePrefix(row.objectId));
      var phenotypeId := PhenotypeId(row.phenotypeTermIdentifiers[0].termId);
      var gene := BareGene(row.objectId).(source := Some(source));
      var association :=
        BareAssociation(UuidPrefix + uuid, gene.id, HasPhenotype, phenotypeId).(
          publications := Some([row.publicationId]),
          aggregatorKnowledgeSource := Some([MonarchInfores, AllianceInfores]),
          primaryKnowledgeSource := Some(source));
      var association :=
        if row.conditionRelations.Some? then association.(qualifiers := Some(Qualifiers(row.conditionRelations.value)))
        else association;
      [Edge(association)]
    else
      []
  }

  /** A run over a row source; row `i` gets the fresh identifier `uuids(i)`. */
  function Run(rows: seq<Row>, geneIds: set<string>, sourceMap: string -> string, uuids: nat -> string): seq<Entity>
  {
    Sink.Run(rows, (i: nat, row: Row) => Transform(row, geneIds, sourceMap, uuids(i)))
  }

  lemma {:induction false} ConditionTermsMember(conditions: seq<Condition>, q: OntologyClass)
    ensures q in ConditionTerms(conditions) <==>
      q.id != "" && exists j :: 0 <= j < |conditions| && conditions[j].conditionClassId == Some(q.id)
    decreases |conditions|
  {
    if |conditions| > 0 {
      ConditionTermsMember(conditions[1..], q);
      assert forall j :: 1 <= j < |conditions| ==> conditions[1..][j - 1] == conditions[j];
    }
  }

  /** A term is a qualifier exactly when some condition of some relation
      names it as a non-empty class id. */
  lemma {:induction false} QualifiersMember(relations: seq<ConditionRelation>, q: OntologyClass)
    ensures q in Qualifiers(relations) <==>
      q.id != "" &&
      exists i, j :: 0 <= i < |relations| && 0 <= j < |relations[i].conditions|
                     && relations[i].conditions[j].conditionClassId == Some(q.id)
    decreases |relations|
  {
    if |relations| > 0 {
      ConditionTermsMember(relations[0].conditions, q);
      QualifiersMember(relations[1..], q);
      assert forall i :: 1 <= i < |relations| ==> relations[1..][i - 1] == relations[i];
    }
  }

  /** Qualifiers keep the order of the relations they come from. */
  lemma {:induction false} QualifiersAppend(a: seq<ConditionRelation>, b: seq<ConditionRelation>)
    ensures Qualifiers(a + b) == Qualifiers(a) + Qualifiers(b)
    decreases |a|
  {
    if |a| == 0 {
      assert a + b == b;
    } else {
      assert (a + b)[1..] == a[1..] + b;
      QualifiersAppend(a[1..], b);
    }
  }

  /** A single condition gives one term when its class id is usable and
      none otherwise. */
  lemma ConditionTermsSingle(c: Condition)
    ensures ConditionTerms([c]) == if Truthy(c.conditionClassId) then [OntologyClass(c.conditionClassId.value)] else []
  {
    assert [c][1..] == [];
  }

  /** Terms keep the order of the conditions they come from. */
  lemma {:induction false} ConditionTermsAppend(a: seq<Condition>, b: seq<Condition>)
    ensures ConditionTerms(a + b) == ConditionTerms(a) + ConditionTerms(b)
    decreases |a|
  {
    if |a| == 0 {
      assert a + b == b;
    } else {
      assert (a + b)[1..] == a[1..] + b;
      assert (a + b)[0] == a[0];
      ConditionTermsAppend(a[1..], b);
    }
  }

  /** A single relation gives exactly its conditions' terms. */
  lemma QualifiersSingle(relation: ConditionRelation)
    ensures Qualifiers([relation]) == ConditionTerms(relation.conditions)
  {
    assert [relation][1..] == [];
  }

  /** Conditions without a usable class id contribute no qualifier. */
  lemma {:induction false} NoClassIdsNoQualifiers(relations: seq<ConditionRelation>)
    requires forall i, j :: 0 <= i < |relations| && 0 <= j < |relations[i].conditions|
               ==> !Truthy(relations[i].conditions[j].conditionClassId)
    ensures Qualifiers(relations) == []
  {
    if Qualifiers(relations) != [] {
      var q := Qualifiers(relations)[0];
      QualifiersMember(relations, q);
    }
  }

  lemma ShortHasNoSubstring(s: string, sub: string)
    requires |s| < |sub|
    ensures !HasSubstring(s, sub)
  {
  }

  /** A WormBase id nested under the WB namespace. */
  lemma NestedWormIdRewritten()
    ensures PhenotypeId("WB:WBPhenotype:0000123") == "WBPhenotype:0000123"
  {
    ShortHasNoSubstring("0000123", NestedWormPrefix);
    NestedPrefixRewritten("0000123");
    assert NestedWormPrefix + "0000123" == "WB:WBPhenotype:0000123";
    assert WormPrefix + "0000123" == "WBPhenotype:0000123";
  }

  /** An id that starts with the doubled prefix loses its `WB:` namespace
      and keeps the rest, provided the doubled prefix does not recur. */
  lemma NestedPrefixRewritten(t: string)
    requires !HasSubstring(t, NestedWormPrefix)
    ensures PhenotypeId(NestedWormPrefix + t) == WormPrefix + t
  {
    ReplaceAtFirst("", NestedWormPrefix, WormPrefix, t);
    assert "" + NestedWormPrefix + t == NestedWormPrefix + t;
  }

  /** A single-phenotype row for a known gene yields the expected edge. */
  lemma SingleTermExample(geneIds: set<string>, sourceMap: string -> string, uuid: string)
    requires "MGI:12345" in geneIds
    ensures var written := Transform(Row("MGI:12345", [PhenotypeTerm("WB:WBPhenotype:0000123")], "PMID:1", None),
                                     geneIds, sourceMap, uuid);
      && |written| == 1
      && written[0].association.obj == "WBPhenotype:0000123"
      && written[0].association.pred == "biolink:has_phenotype"
      && written[0].association.publications == Some(["PMID:1"])
      && written[0].association.qualifiers == None
  {
    NestedWormIdRewritten();
  }

  /** A row naming two phenotypes is ambiguous and writes nothing. */
  lemma TwoTermsWriteNothing(row: Row, geneIds: set<string>, sourceMap: string -> string, uuid: string)
    requires |row.phenotypeTermIdentifiers| == 2
    ensures Transform(row, geneIds, sourceMap, uuid) == []
  {
  }

  /** Over a whole run, every written entity is a has-phenotype edge with a
      minted id, Monarch among its aggregators, and a subject from the gene
      map; and the run writes exactly one edge per accepted row. */
  lemma RunInvariant(rows: seq<Row>, geneIds: set<string>, sourceMap: string -> string, uuids: nat -> string)
    ensures forall e :: e in Run(rows, geneIds, sourceMap, uuids) ==>
      && e.Edge?
      && e.association.pred == HasPhenotype
      && UuidPrefix <= e.association.id
      && e.association.subject in geneIds
      && e.association.aggregatorKnowledgeSource.Some?
      && MonarchInfores in e.association.aggregatorKnowledgeSource.value
    ensures Run(rows, geneIds, sourceMap, uuids) == [] <==>
      forall i :: 0 <= i < |rows| ==> !Accepted(rows[i], geneIds)
  {
    var f := (i: nat, row: Row) => Transform(row, geneIds, sourceMap, uuids(i));
    forall e | e in Run(rows, geneIds, sourceMap, uuids)
      ensures && e.Edge?
              && e.association.pred == HasPhenotype
              && UuidPrefix <= e.association.id
              && e.association.subject in geneIds
              && e.association.aggregatorKnowledgeSource.Some?
              && MonarchInfores in e.association.aggregatorKnowledgeSource.value
    {
      Sink.RunMember(rows, f, e);
      var i :| 0 <= i < |rows| && e in f(i, rows[i]);
    }
    Sink.RunEmptyIff(rows, f);
    forall i | 0 <= i < |rows|
      ensures f(i, rows[i]) == [] <==> !Accepted(rows[i], geneIds)
    {
      assert f(i, rows[i]) == Transform(rows[i], geneIds, sourceMap, uuids(i));
    }
  }
}

=== FILE: biolink.dfy ===
/** The typed records the transforms write: nodes (`Gene`) and edges
    (`Association`) of the biolink schema, with only the attributes the
    modelled transforms set. An attribute the transform never assigns is
    `None`. The schema classes themselves (their validation and defaults)
    are not part of this model. */
module Biolink {
  import opened Wrappers

  datatype KnowledgeLevel = KnowledgeAssertion
  datatype AgentType = ManualAgent

  /** A qualifier term. */
  datatype OntologyClass = OntologyClass(id: string)

  datatype Gene = Gene(
    id: string,
    symbol: Option<string>,
    name: Option<string>,
    synonym: Option<seq<string>>,
    inTaxon: Option<seq<string>>,
    providedBy: Option<seq<string>>,
    xref: Option<seq<string>>,
    source: Option<string>)

  datatype Association = Association(
    id: string,
    subject: string,
    pred: string,
    obj: string,
    publications: Option<seq<string>>,
    aggregatorKnowledgeSource: Option<seq<string>>,
    primaryKnowledgeSource: Option<string>,
    qualifiers: Option<seq<OntologyClass>>,
    knowledgeLevel: Option<KnowledgeLevel>,
    agentType: Option<AgentType>,
    source: Option<string>,
    relation: Option<string>)

  /** One record handed to the writer. */
  datatype Entity = Node(gene: Gene) | Edge(association: Association)

  const MonarchInfores: string := "infores:monarchinitiative"
  const HasPhenotype: string := "biolink:has_phenotype"

  /** Identifiers minted for associations carry this prefix. */
  const UuidPrefix: string := "uuid:"

  /** A gene with only its identifier set. */
  function BareGene(id: string): Gene {
    Gene(id, None, None, None, None, None, None, None)
  }

  /** An association with only its four mandatory attributes set. */
  function BareAssociation(id: string, subject: string, pred: string, obj: string): Association {
    Association(id, subject, pred, obj, None, None, None, None, None, None, None, None)
  }
}

=== FILE: dictybase.dfy ===
/** The dictyBase gene-to-phenotype ingest. A row names one or more genes
    in `DDB_G_ID` (separated by '|'); only single-gene rows are used, and
    such a row yields one association per phenotype the row lists. */
module DictybaseGeneToPhenotype {
  import opened Wrappers
  import opened Strings
  import opened Biolink
  import Sink

  /** One record of the dictyBase phenotype file: the gene column and the
      remaining columns, which only the phenotype parser reads. */
  datatype Row = Row(ddbGId: string, fields: map<string, string>)

  const DictyPrefix: string := "dictyBase:"
  const DictyInfores: string := "infores:dictybase"

  /** The gene CURIEs of a row: each '|'-separated piece, prefixed. */
  function GeneIdentifiers(ddbGId: string): (ids: seq<string>)
    ensures |ids| == Count(ddbGId, '|') + 1
    ensures forall i :: 0 <= i < |ids| ==> DictyPrefix <= ids[i] && '|' !in ids[i][|DictyPrefix|..]
  {
    var pieces := Split(ddbGId, '|');
    SplitCount(ddbGId, '|');
    seq(|pieces|, i requires 0 <= i < |pieces| => DictyPrefix + pieces[i])
  }

  /** The local identifiers back out of a sequence of gene CURIEs. */
  function LocalIds(ids: seq<string>): seq<string>
    requires forall i :: 0 <= i < |ids| ==> DictyPrefix <= ids[i]
  {
    seq(|ids|, i requires 0 <= i < |ids| => ids[i][|DictyPrefix|..])
  }

  /** Stripping the prefix and re-joining with '|' gives the column back,
      so no piece (empty ones included) is lost. */
  lemma GeneIdentifiersRoundTrip(ddbGId: string)
    ensures Join(LocalIds(GeneIdentifiers(ddbGId)), "|") == ddbGId
  {
    assert LocalIds(GeneIdentifiers(ddbGId)) == Split(ddbGId, '|');
    JoinSplit(ddbGId, '|');
  }

  /** What one row writes. `parsePhenotypes` stands for the source's
      phenotype parser together with its name-to-id map; `uuids(k)` is the
      fresh identifier of the k-th association of the row. */
  function Transform(row: Row, parsePhenotypes: Row -> seq<string>, uuids: nat -> string): (written: seq<Entity>)
    ensures '|' in row.ddbGId ==> written == []
    ensures '|' !in row.ddbGId ==> |written| == |parsePhenotypes(row)|
    ensures forall k :: 0 <= k < |written| ==>
      && written[k].Edge?
      && var a := written[k].association;
      && a.id == UuidPrefix + uuids(k)
      && a.subject == DictyPrefix + row.ddbGId
      && a.pred == HasPhenotype
      && a.obj == parsePhenotypes(row)[k]
      && a.aggregatorKnowledgeSource == Some([MonarchInfores])
      && a.primaryKnowledgeSource == Some(DictyInfores)
      && a.knowledgeLevel == Some(KnowledgeAssertion)
      && a.agentType == Some(ManualAgent)
      && a.publications == None && a.qualifiers == None
      && a.source == None && a.relation == None
  {
    var geneIdentifier := GeneIdentifiers(row.ddbGId);
    if |geneIdentifier| == 1 then
      CountAbsent(row.ddbGId, '|');
      var phenotypes := parsePhenotypes(row);
      seq(|phenotypes|, k requires 0 <= k < |phenotypes| =>
        Edge(BareAssociation(UuidPrefix + uuids(k), geneIdentifier[0], HasPhenotype, phenotypes[k]).(
          aggregatorKnowledgeSource := Some([MonarchInfores]),
          primaryKnowledgeSource := Some(DictyInfores),
          knowledgeLevel := Some(KnowledgeAssertion),
          agentType := Some(ManualAgent))))
    else
      SplitCount(row.ddbGId, '|');
      []
  }

  /** A run over a row source; row `i` draws its identifiers from `uuids(i)`. */
  function Run(rows: seq<Row>, parsePhenotypes: Row -> seq<string>, uuids: nat -> nat -> string): seq<Entity>
  {
    Sink.Run(rows, (i: nat, row: Row) => Transform(row, parsePhenotypes, uuids(i)))
  }

  /** A multi-gene row contributes nothing to a run; each single-gene row
      contributes exactly its phenotypes, in order. */
  lemma {:induction false} RunSize(rows: seq<Row>, parsePhenotypes: Row -> seq<string>, uuids: nat -> nat -> string)
    ensures |Run(rows, parsePhenotypes, uuids)| == PhenotypeCount(rows, parsePhenotypes)
    decreases |rows|
  {
    if |rows| > 0 {
      var n := |rows| - 1;
      var f := (i: nat, row: Row) => Transform(row, parsePhenotypes, uuids(i));
      assert Run(rows, parsePhenotypes, uuids) == Run(rows[..n], parsePhenotypes, uuids) + f(n, rows[n]);
      RunSize(rows[..n], parsePhenotypes, uuids);
      assert f(n, rows[n]) == Transform(rows[n], parsePhenotypes, uuids(n));
      assert rows[..n] == rows[..|rows| - 1];
    }
  }

  /** Phenotypes listed by the single-gene rows of `rows`. */
  function PhenotypeCount(rows: seq<Row>, parsePhenotypes: Row -> seq<string>): nat
    decreases |rows|
  {
    if |rows| == 0 then 0
    else
      PhenotypeCount(rows[..|rows| - 1], parsePhenotypes)
      + (if '|' in rows[|rows| - 1].ddbGId then 0 else |parsePhenotypes(rows[|rows| - 1])|)
  }

  /** Over a whole run, every written edge is a dictyBase has-phenotype
      assertion aggregated by Monarch, with a single-gene subject. */
  lemma RunInvariant(rows: seq<Row>, parsePhenotypes: Row -> seq<string>, uuids: nat -> nat -> string)
    ensures forall e :: e in Run(rows, parsePhenotypes, uuids) ==>
      && e.Edge?
      && e.association.pred == HasPhenotype
      && e.association.primaryKnowledgeSource == Some(DictyInfores)
      && e.association.aggregatorKnowledgeSource == Some([MonarchInfores])
      && UuidPrefix <= e.association.id
      && DictyPrefix <= e.association.subject
      && '|' !in e.association.subject[|DictyPrefix|..]
  {
    var f := (i: nat, row: Row) => Transform(row, parsePhenotypes, uuids(i));
    forall e | e in Run(rows, parsePhenotypes, uuids)
      ensures && e.Edge?
              && e.association.pred == HasPhenotype
              && e.association.primaryKnowledgeSource == Some(DictyInfores)
              && e.association.aggregatorKnowledgeSource == Some([MonarchInfores])
              && UuidPrefix <= e.association.id
              && DictyPrefix <= e.association.subject
              && '|' !in e.association.subject[|DictyPrefix|..]
    {
      Sink.RunMember(rows, f, e);
      var i :| 0 <= i < |rows| && e in f(i, rows[i]);
      var written := Transform(rows[i], parsePhenotypes, uuids(i));
      assert f(i, rows[i]) == written;
      var k :| 0 <= k < |written| && written[k] == e;
      assert e.association.subject[|DictyPrefix|..] == rows[i].ddbGId;
    }
  }
}

=== FILE: humanize.dfy ===
/** The edge humaniser: rewrites each edge of the merged graph as
    "subject name (a category) / predicate in words / object name / source",
    using a map from node id to name and category built from the nodes file.
    Rows are tab-separated lines already split into cells; reading and
    writing the files is not modelled. */
module Humanize {
  import opened Wrappers
  import opened Strings

  /** One line of a tab-separated file, as cells. */
  type Row = seq<string>

  /** The ways the script stops early. */
  datatype HumanizeError =
    | MissingNodeColumn(column: string)  // no 'id' or no 'name' column: exit status 1
    | MissingEdgeColumns                 // no 'subject', 'predicate' or 'object' column: exit status 1
    | EmptyCategoryText                  // `category[0]` on a category that is empty once its prefix is gone

  /** The position of the first header cell equal to `name`, or -1. */
  function FindColumnIndex(header: seq<string>, name: string): (idx: int)
    ensures -1 <= idx < |header|
    ensures idx == -1 <==> name !in header
    ensures idx >= 0 ==> header[idx] == name && name !in header[..idx]
  {
    if |header| == 0 then -1
    else if header[0] == name then 0
    else
      assert header == [header[0]] + header[1..];
      var rest := FindColumnIndex(header[1..], name);
      if rest == -1 then -1
      else
        assert header[..rest + 1] == [header[0]] + header[1..][..rest];
        rest + 1
  }

  function Max(a: int, b: int): int {
    if a < b then b else a
  }

  /** Column positions in the nodes file; the category column is optional. */
  datatype NodeColumns = NodeColumns(id: nat, name: nat, category: Option<nat>)

  /** Column positions in the edges file; the source column is optional. */
  datatype EdgeColumns = EdgeColumns(subject: nat, pred: nat, obj: nat, source: Option<nat>)

  function NodeColumnsOf(header: seq<string>): (r: Result<NodeColumns, HumanizeError>)
    ensures r.Success? <==> "id" in header && "name" in header
    ensures "id" !in header ==> r == Failure(MissingNodeColumn("id"))
    ensures "id" in header && "name" !in header ==> r == Failure(MissingNodeColumn("name"))
    ensures r.Success? ==>
      && r.value.id < |header| && header[r.value.id] == "id"
      && r.value.name < |header| && header[r.value.name] == "name"
      && (r.value.category.Some? <==> "category" in header)
      && (r.value.category.Some? ==> r.value.category.value < |header| && header[r.value.category.value] == "category")
    ensures r.Success? ==> forall k :: 0 <= k < |header| ==>
      && (k < r.value.id ==> header[k] != "id")
      && (k < r.value.name ==> header[k] != "name")
      && (r.value.category.Some? && k < r.value.category.value ==> header[k] != "category")
  {
    var idCol := FindColumnIndex(header, "id");
    var nameCol := FindColumnIndex(header, "name");
    var categoryCol := FindColumnIndex(header, "category");
    if idCol == -1 then Failure(MissingNodeColumn("id"))
    else if nameCol == -1 then Failure(MissingNodeColumn("name"))
    else Success(NodeColumns(idCol, nameCol, if categoryCol == -1 then None else Some(categoryCol)))
  }

  function EdgeColumnsOf(header: seq<string>): (r: Result<EdgeColumns, HumanizeError>)
    ensures r.Failure? <==> "subject" !in header || "predicate" !in header || "object" !in header
    ensures r.Failure? ==> r.error == MissingEdgeColumns
    ensures r.Success? ==>
      && r.value.subject < |header| && header[r.value.subject] == "subject"
      && r.value.pred < |header| && header[r.value.pred] == "predicate"
      && r.value.obj < |header| && header[r.value.obj] == "object"
      && (r.value.source.Some? <==> "primary_knowledge_source" in header)
      && (r.value.source.Some? ==> r.value.source.value < |header| && header[r.value.source.value] == "primary_knowledge_source")
    ensures r.Success? ==> forall k :: 0 <= k < |header| ==>
      && (k < r.value.subject ==> header[k] != "subject")
      && (k < r.value.pred ==> header[k] != "predicate")
      && (k < r.value.obj ==> header[k] != "object")
      && (r.value.source.Some? && k < r.value.source.value ==> header[k] != "primary_knowledge_source")
  {
    var subjectCol := FindColumnIndex(header, "subject");
    var predicateCol := FindColumnIndex(header, "predicate");
    var objectCol := FindColumnIndex(header, "object");
    var sourceCol := FindColumnIndex(header, "primary_knowledge_source");
    if subjectCol == -1 || predicateCol == -1 || objectCol == -1 then Failure(MissingEdgeColumns)
    else Success(EdgeColumns(subjectCol, predicateCol, objectCol, if sourceCol == -1 then None else Some(sourceCol)))
  }

  // ---------------------------------------------------------------------
  // String rewriters

  /** `t` is what follows the first ':' of `s`. */
  predicate TextAfterFirstColon(s: string, t: string) {
    && |t| < |s|
    && s == s[..|s| - |t| - 1] + [':'] + t
    && ':' !in s[..|s| - |t| - 1]
  }

  /** A source CURIE without its namespace. */
  function HumanizeSource(source: string): (r: string)
    ensures ':' in source ==> TextAfterFirstColon(source, r)
    ensures ':' !in source ==> r == source
  {
    if ':' in source then After(source, ':') else source
  }

  /** A predicate in words: a CURIE loses its namespace and its underscores;
      a bare id is looked up among the node names. */
  function HumanizePredicate(pred: string, names: map<string, string>): (r: string)
    ensures ':' in pred ==> r == ReplaceChar(HumanizeSource(pred), '_', ' ') && '_' !in r
    ensures ':' !in pred && pred in names ==> r == names[pred]
    ensures ':' !in pred && pred !in names ==> r == pred
  {
    if ':' in pred then ReplaceChar(After(pred, ':'), '_', ' ')
    else if pred in names then names[pred]
    else pred
  }

  predicate IsHump(a: char, b: char) {
    IsLowerAscii(a) && IsUpperAscii(b)
  }

  /** The regular-expression substitution of `([a-z])([A-Z])` by `\1 \2`:
      a left-to-right scan where each match consumes both of its letters. */
  function SplitCamel(s: string): (r: string)
    ensures |r| == |s| + Humps(s)
    decreases |s|
  {
    if |s| < 2 then s
    else if IsHump(s[0], s[1]) then
      assert s[1..][1..] == s[2..];
      [s[0], ' ', s[1]] + SplitCamel(s[2..])
    else [s[0]] + SplitCamel(s[1..])
  }

  /** Reference reading of the substitution, position by position: every
      character is kept, and a space follows exactly those lower-case letters
      whose successor is an upper-case letter. */
  function SpacedHumps(s: string): string
    decreases |s|
  {
    if |s| == 0 then ""
    else [s[0]] + (if |s| >= 2 && IsHump(s[0], s[1]) then " " else "") + SpacedHumps(s[1..])
  }

  /** Number of lower-then-upper letter pairs in `s`. */
  function Humps(s: string): nat
    decreases |s|
  {
    if |s| < 2 then 0
    else (if IsHump(s[0], s[1]) then 1 else 0) + Humps(s[1..])
  }

  /** The scan agrees with the position-by-position reading: consuming the
      upper-case letter of a match never hides another match, since a match
      must start with a lower-case letter. */
  lemma {:induction false} SplitCamelIsSpacedHumps(s: string)
    ensures SplitCamel(s) == SpacedHumps(s)
    decreases |s|
  {
    if |s| == 0 {
    } else if |s| == 1 {
      assert SpacedHumps(s[1..]) == "";
    } else if IsHump(s[0], s[1]) {
      SplitCamelIsSpacedHumps(s[2..]);
      assert s[1..][1..] == s[2..];
      assert !(|s[1..]| >= 2 && IsHump(s[1..][0], s[1..][1]));
      assert SpacedHumps(s[1..]) == [s[1]] + SpacedHumps(s[2..]);
    } else {
      SplitCamelIsSpacedHumps(s[1..]);
    }
  }

  /** The category text before the article: namespace dropped, words split
      at lower-then-upper boundaries, lower-cased. */
  function CategoryText(category: string): string
  {
    Lower(SplitCamel(HumanizeSource(category)))
  }

  predicate IsVowel(c: char) {
    c in "aeiou"
  }

  /** A category in words with its indefinite article. An empty category
      stays empty; a category that is empty once its namespace is dropped
      (such as `biolink:`) makes the script fail. */
  function HumanizeCategory(category: string): (r: Result<string, HumanizeError>)
    ensures category == "" ==> r == Success("")
    ensures r.Failure? <==> category != "" && HumanizeSource(category) == ""
    ensures r.Success? && category != "" ==>
      && |CategoryText(category)| > 0
      && (r.value == "an " + CategoryText(category) <==> IsVowel(CategoryText(category)[0]))
      && (r.value == "a " + CategoryText(category) <==> !IsVowel(CategoryText(category)[0]))
  {
    if category == "" then Success("")
    else
      var text := CategoryText(category);
      if |text| == 0 then Failure(EmptyCategoryText)
      else if IsVowel(LowerChar(text[0])) then
        assert ("an " + text)[1] != ("a " + text)[1];
        Success("an " + text)
      else
        assert ("an " + text)[1] != ("a " + text)[1];
        Success("a " + text)
  }

  /** A humanised category contains no upper-case ASCII letter. */
  lemma HumanizedCategoryIsLowerCase(category: string)
    requires HumanizeCategory(category).Success?
    ensures forall i :: 0 <= i < |HumanizeCategory(category).value| ==> !IsUpperAscii(HumanizeCategory(category).value[i])
  {
    var r := HumanizeCategory(category).value;
    if category != "" {
      var text := CategoryText(category);
      assert r == "an " + text || r == "a " + text;
      forall i | 0 <= i < |r| ensures !IsUpperAscii(r[i]) {
        if r == "an " + text && i >= 3 {
          assert r[i] == text[i - 3];
        } else if r == "a " + text && i >= 2 {
          assert r[i] == text[i - 2];
        }
      }
    }
  }

  lemma PredicateExamplePieces()
    ensures "biolink:has_phenotype" == "biolink" + [':'] + ("has" + ['_'] + "phenotype")
    ensures "has phenotype" == "has" + [' '] + "phenotype"
  {
  }

  lemma PredicateExample(names: map<string, string>)
    ensures HumanizePredicate("biolink:has_phenotype", names) == "has phenotype"
  {
    PredicateExamplePieces();
    AfterFirst("biolink", ':', "has" + ['_'] + "phenotype");
    ReplaceCharAppend("has" + ['_'], "phenotype", '_', ' ');
    ReplaceCharAppend("has", ['_'], '_', ' ');
    ReplaceCharAbsent("has", '_', ' ');
    ReplaceCharAbsent("phenotype", '_', ' ');
    assert ReplaceChar(['_'], '_', ' ') == [' '];
  }

  lemma SourceExample()
    ensures HumanizeSource("infores:pombase") == "pombase"
  {
    assert "infores:pombase" == "infores" + [':'] + "pombase";
    AfterFirst("infores", ':', "pombase");
  }

  /** No lower-case letter of `s` is followed by an upper-case one. */
  predicate HumpFree(s: string) {
    forall i :: 0 <= i < |s| - 1 ==> !IsHump(s[i], s[i + 1])
  }

  lemma HumpFreeTail(s: string)
    requires |s| >= 1 && HumpFree(s)
    ensures HumpFree(s[1..])
  {
    forall i | 0 <= i < |s[1..]| - 1 ensures !IsHump(s[1..][i], s[1..][i + 1]) {
      assert s[1..][i] == s[i + 1] && s[1..][i + 1] == s[i + 2];
    }
  }

  /** Text without a lower-then-upper pair has nothing to split. */
  lemma {:induction false} NoHumpsUnchanged(s: string)
    requires HumpFree(s)
    ensures SplitCamel(s) == s
    decreases |s|
  {
    if |s| >= 2 {
      assert !IsHump(s[0], s[1]);
      HumpFreeTail(s);
      NoHumpsUnchanged(s[1..]);
      assert s == [s[0]] + s[1..];
    }
  }

  /** The scan keeps a first letter that starts no match. */
  lemma SplitCamelKeeps(s: string)
    requires |s| >= 2 && !IsHump(s[0], s[1])
    ensures SplitCamel(s) == [s[0]] + SplitCamel(s[1..])
  {
  }

  /** The scan splits a match at the start and resumes after it. */
  lemma SplitCamelSplits(s: string)
    requires |s| >= 2 && IsHump(s[0], s[1])
    ensures SplitCamel(s) == [s[0], ' ', s[1]] + SplitCamel(s[2..])
  {
  }

  /** Where a hump-free word ends in a lower-case letter and the next word
      starts with an upper-case one, exactly one space goes between them. */
  lemma {:induction false} SplitCamelAtHump(a: string, b: string)
    requires |a| >= 1 && |b| >= 1 && IsHump(a[|a| - 1], b[0])
    requires HumpFree(a)
    ensures SplitCamel(a + b) == a + [' '] + SplitCamel(b)
    decreases |a|
  {
    var s := a + b;
    if |a| == 1 {
      assert s[0] == a[0] && s[1] == b[0];
      SplitCamelSplits(s);
      assert s[2..] == b[1..];
      if |b| >= 2 {
        assert !IsHump(b[0], b[1]);
        SplitCamelKeeps(b);
      }
      assert a + [' '] + [b[0]] == [s[0], ' ', s[1]];
    } else {
      var rest := SplitCamel(b);
      calc {
        SplitCamel(s);
        { assert s[0] == a[0] && s[1] == a[1];
          assert !IsHump(a[0], a[1]);
          SplitCamelKeeps(s); }
        [a[0]] + SplitCamel(s[1..]);
        { assert s[1..] == a[1..] + b; }
        [a[0]] + SplitCamel(a[1..] + b);
        { HumpFreeTail(a);
          SplitCamelAtHump(a[1..], b); }
        [a[0]] + (a[1..] + [' '] + rest);
        { assert a == [a[0]] + a[1..]; }
        a + [' '] + rest;
      }
    }
  }

  /** A namespaced category made of two hump-free words that meet at a
      lower-then-upper boundary reads as the two words, lower-cased and
      separated by one space. */
  lemma TwoWordCategory(ns: string, first: string, second: string)
    requires ':' !in ns && |first| >= 1 && |second| >= 1
    requires HumpFree(first) && HumpFree(second) && IsHump(first[|first| - 1], second[0])
    ensures CategoryText(ns + [':'] + (first + second)) == Lower(first) + [' '] + Lower(second)
  {
    AfterFirst(ns, ':', first + second);
    SplitCamelAtHump(first, second);
    NoHumpsUnchanged(second);
    LowerAppend(first + [' '], second);
    LowerAppend(first, [' ']);
  }

  /** A category whose text starts with a consonant gets "a". */
  lemma ConsonantCategory(category: string, text: string)
    requires HumanizeSource(category) != "" && CategoryText(category) == text
    requires |text| > 0 && !IsVowel(text[0])
    ensures HumanizeCategory(category) == Success("a " + text)
  {
  }

  /** A category that is only a namespace makes the script fail. */
  lemma NamespaceOnlyCategoryFails()
    ensures HumanizeCategory("biolink:") == Failure(EmptyCategoryText)
  {
    assert "biolink:" == "biolink" + [':'] + "";
    AfterFirst("biolink", ':', "");
  }

  // ---------------------------------------------------------------------
  // Node map

  /** Names and categories by node id. */
  datatype NodeMaps = NodeMaps(names: map<string, string>, categories: map<string, string>)

  /** `row` is long enough for the id and name columns and has id `id`. */
  predicate Defines(row: Row, cols: NodeColumns, id: string) {
    |row| > Max(cols.id, cols.name) && id != "" && row[cols.id] == id
  }

  /** The category cell of a row, or "" when the file or the row lacks it. */
  function CategoryCell(row: Row, cols: NodeColumns): string {
    if cols.category.Some? && |row| > cols.category.value then row[cols.category.value] else ""
  }

  /** `row` defines `id` and gives it a category. */
  predicate Categorizes(row: Row, cols: NodeColumns, id: string) {
    Defines(row, cols, id) && CategoryCell(row, cols) != ""
  }

  /** Every recorded category is non-empty and belongs to a named id. */
  predicate CategoriesNamed(maps: NodeMaps) {
    forall id :: id in maps.categories ==> id in maps.names && maps.categories[id] != ""
  }

  /** One nodes-file row read into the maps. Nothing is ever removed, and
      every recorded category keeps belonging to a named id. */
  function AddNode(maps: NodeMaps, row: Row, cols: NodeColumns): (r: NodeMaps)
    ensures forall id :: id in maps.names ==> id in r.names
    ensures forall id :: id in maps.categories ==> id in r.categories
    ensures CategoriesNamed(maps) ==> CategoriesNamed(r)
  {
    if |row| > Max(cols.id, cols.name) && row[cols.id] != "" then
      var id := row[cols.id];
      var category := CategoryCell(row, cols);
      NodeMaps(maps.names[id := row[cols.name]],
               if category != "" then maps.categories[id := category] else maps.categories)
    else maps
  }

  /** The maps after reading `rows` in order. */
  function BuildNodeMaps(rows: seq<Row>, cols: NodeColumns): (r: NodeMaps)
    ensures CategoriesNamed(r)
    decreases |rows|
  {
    if |rows| == 0 then NodeMaps(map[], map[])
    else AddNode(BuildNodeMaps(rows[..|rows| - 1], cols), rows[|rows| - 1], cols)
  }

  /** An id is named exactly when some row defines it. */
  lemma {:induction false} NamedIffDefined(rows: seq<Row>, cols: NodeColumns, id: string)
    ensures id in BuildNodeMaps(rows, cols).names <==> exists i :: 0 <= i < |rows| && Defines(rows[i], cols, id)
    decreases |rows|
  {
    if |rows| > 0 {
      var n := |rows| - 1;
      NamedIffDefined(rows[..n], cols, id);
      assert forall i :: 0 <= i < n ==> rows[..n][i] == rows[i];
    }
  }

  /** The name of an id comes from the last row that defines it. */
  lemma {:induction false} NameFromLastDefiningRow(rows: seq<Row>, cols: NodeColumns, id: string, i: nat)
    requires i < |rows| && Defines(rows[i], cols, id)
    requires forall j :: i < j < |rows| ==> !Defines(rows[j], cols, id)
    ensures id in BuildNodeMaps(rows, cols).names
    ensures BuildNodeMaps(rows, cols).names[id] == rows[i][cols.name]
    decreases |rows|
  {
    var n := |rows| - 1;
    if i < n {
      assert forall j :: i < j < n ==> rows[..n][j] == rows[j];
      NameFromLastDefiningRow(rows[..n], cols, id, i);
    }
  }

  /** An id has a category exactly when some row defines it with a
      non-empty category cell. */
  lemma {:induction false} CategorizedIffSomeRow(rows: seq<Row>, cols: NodeColumns, id: string)
    ensures id in BuildNodeMaps(rows, cols).categories <==> exists i :: 0 <= i < |rows| && Categorizes(rows[i], cols, id)
    decreases |rows|
  {
    if |rows| > 0 {
      var n := |rows| - 1;
      CategorizedIffSomeRow(rows[..n], cols, id);
      assert forall i :: 0 <= i < n ==> rows[..n][i] == rows[i];
    }
  }

  /** The category of an id comes from the last row that gives one: a later
      row with an empty category cell does not erase it. */
  lemma {:induction false} CategoryFromLastCategorizingRow(rows: seq<Row>, cols: NodeColumns, id: string, i: nat)
    requires i < |rows| && Categorizes(rows[i], cols, id)
    requires forall j :: i < j < |rows| ==> !Categorizes(rows[j], cols, id)
    ensures id in BuildNodeMaps(rows, cols).categories
    ensures BuildNodeMaps(rows, cols).categories[id] == CategoryCell(rows[i], cols)
    decreases |rows|
  {
    var n := |rows| - 1;
    if i < n {
      assert forall j :: i < j < n ==> rows[..n][j] == rows[j];
      CategoryFromLastCategorizingRow(rows[..n], cols, id, i);
    }
  }

  // ---------------------------------------------------------------------
  // Edge rows

  /** The label of a node: its name (the raw id when unnamed), followed by
      its humanised category in parentheses when it has one. */
  function NodeLabel(id: string, maps: NodeMaps, hasCategories: bool): (r: Result<string, HumanizeError>)
    ensures var name := if id in maps.names then maps.names[id] else id;
      && (!(hasCategories && id in maps.categories && maps.categories[id] != "") ==> r == Success(name))
      && (hasCategories && id in maps.categories && maps.categories[id] != "" ==>
            && (r.Failure? <==> HumanizeCategory(maps.categories[id]).Failure?)
            && (r.Success? ==> r.value == name + " (" + HumanizeCategory(maps.categories[id]).value + ")"))
  {
    var name := if id in maps.names then maps.names[id] else id;
    if hasCategories && id in maps.categories && maps.categories[id] != "" then
      var humanized :- HumanizeCategory(maps.categories[id]);
      Success(if humanized != "" then name + " (" + humanized + ")" else name)
    else
      Success(name)
  }

  /** One edges-file row: `None` for a row too short for the subject,
      predicate and object columns, otherwise the humanised cells, with the
      source cell when the file and the row have one. */
  function HumanizeEdge(row: Row, cols: EdgeColumns, maps: NodeMaps, hasCategories: bool): (r: Result<Option<Row>, HumanizeError>)
    ensures |row| <= Max(cols.subject, Max(cols.pred, cols.obj)) ==> r == Success(None)
    ensures |row| > Max(cols.subject, Max(cols.pred, cols.obj)) && r.Success? ==> r.value.Some?
    ensures r.Success? && r.value.Some? ==>
      && |row| > Max(cols.subject, Max(cols.pred, cols.obj))
      && |r.value.value| == (if cols.source.Some? && |row| > cols.source.value then 4 else 3)
      && Success(r.value.value[0]) == NodeLabel(row[cols.subject], maps, hasCategories)
      && r.value.value[1] == HumanizePredicate(row[cols.pred], maps.names)
      && Success(r.value.value[2]) == NodeLabel(row[cols.obj], maps, hasCategories)
      && (|r.value.value| == 4 ==> r.value.value[3] == HumanizeSource(row[cols.source.value]))
    ensures r.Failure? <==>
      && |row| > Max(cols.subject, Max(cols.pred, cols.obj))
      && (NodeLabel(row[cols.subject], maps, hasCategories).Failure? || NodeLabel(row[cols.obj], maps, hasCategories).Failure?)
  {
    if |row| > Max(cols.subject, Max(cols.pred, cols.obj)) then
      var subjectName :- NodeLabel(row[cols.subject], maps, hasCategories);
      var objectName :- NodeLabel(row[cols.obj], maps, hasCategories);
      var predicateText := HumanizePredicate(row[cols.pred], maps.names);
      if cols.source.Some? && |row| > cols.source.value then
        Success(Some([subjectName, predicateText, objectName, HumanizeSource(row[cols.source.value])]))
      else
        Success(Some([subjectName, predicateText, objectName]))
    else
      Success(None)
  }

  /** The per-row step of the edge loop, with everything it needs fixed. */
  function EdgeStep(cols: EdgeColumns, maps: NodeMaps, hasCategories: bool): Row -> Result<Option<Row>, HumanizeError>
  {
    row => HumanizeEdge(row, cols, maps, hasCategories)
  }

  /** The cells a step result contributes to the output. */
  function Cells(r: Result<Option<Row>, HumanizeError>): seq<Row> {
    if r.Success? && r.value.Some? then [r.value.value] else []
  }

  /** The cells written for `rows`, assuming none of them fails. */
  function Emitted(rows: seq<Row>, step: Row -> Result<Option<Row>, HumanizeError>): seq<Row>
    decreases |rows|
  {
    if |rows| == 0 then []
    else Emitted(rows[..|rows| - 1], step) + Cells(step(rows[|rows| - 1]))
  }

  lemma EmittedExtend(rows: seq<Row>, i: nat, step: Row -> Result<Option<Row>, HumanizeError>)
    requires i < |rows|
    ensures Emitted(rows[..i + 1], step) == Emitted(rows[..i], step) + Cells(step(rows[i]))
  {
    assert rows[..i + 1][..i] == rows[..i];
  }

  /** The number of rows wide enough for the subject, predicate and object
      columns. */
  function WideRows(rows: seq<Row>, cols: EdgeColumns): nat
    decreases |rows|
  {
    if |rows| == 0 then 0
    else WideRows(rows[..|rows| - 1], cols) + (if |rows[|rows| - 1]| > Max(cols.subject, Max(cols.pred, cols.obj)) then 1 else 0)
  }

  /** A row that does not fail contributes one output row when it is wide
      and none otherwise. */
  lemma WideRowWritten(row: Row, cols: EdgeColumns, maps: NodeMaps, hasCategories: bool)
    requires EdgeStep(cols, maps, hasCategories)(row).Success?
    ensures |Cells(EdgeStep(cols, maps, hasCategories)(row))| == (if |row| > Max(cols.subject, Max(cols.pred, cols.obj)) then 1 else 0)
  {
    var r := HumanizeEdge(row, cols, maps, hasCategories);
    assert EdgeStep(cols, maps, hasCategories)(row) == r;
  }

  /** Any step that writes one row for each wide row and none for a short
      one writes as many rows as there are wide rows. */
  lemma {:induction false} EmittedCountsRows(rows: seq<Row>, cols: EdgeColumns, step: Row -> Result<Option<Row>, HumanizeError>)
    requires forall i :: 0 <= i < |rows| ==>
      |Cells(step(rows[i]))| == (if |rows[i]| > Max(cols.subject, Max(cols.pred, cols.obj)) then 1 else 0)
    ensures |Emitted(rows, step)| == WideRows(rows, cols)
    decreases |rows|
  {
    if |rows| > 0 {
      var n := |rows| - 1;
      assert forall i :: 0 <= i < n ==> rows[..n][i] == rows[i];
      EmittedCountsRows(rows[..n], cols, step);
    }
  }

  /** When no row fails, one output row is written per wide input row: the
      short rows are the only ones skipped. */
  lemma EmittedCountsWideRows(rows: seq<Row>, cols: EdgeColumns, maps: NodeMaps, hasCategories: bool)
    requires forall i :: 0 <= i < |rows| ==> EdgeStep(cols, maps, hasCategories)(rows[i]).Success?
    ensures |Emitted(rows, EdgeStep(cols, maps, hasCategories))| == WideRows(rows, cols)
  {
    forall i | 0 <= i < |rows|
      ensures |Cells(EdgeStep(cols, maps, hasCategories)(rows[i]))| == (if |rows[i]| > Max(cols.subject, Max(cols.pred, cols.obj)) then 1 else 0)
    {
      WideRowWritten(rows[i], cols, maps, hasCategories);
    }
    EmittedCountsRows(rows, cols, EdgeStep(cols, maps, hasCategories));
  }

  /** How many edge rows the loop reads: all of them, or at most
      `debugLimit` when that is positive. */
  function Consumed(available: nat, debugLimit: int): nat {
    if debugLimit > 0 && debugLimit < available then debugLimit else available
  }

  /** The edge loop. `count` is the number of rows read, short ones
      included; `failure` is set when a row's category makes the script
      fail, in which case the rows before it have already been written. */
  method HumanizeEdges(rows: seq<Row>, step: Row -> Result<Option<Row>, HumanizeError>, debugLimit: int)
    returns (written: seq<Row>, count: nat, failure: Option<HumanizeError>)
    ensures count <= |rows|
    ensures debugLimit > 0 ==> count <= debugLimit
    ensures failure.None? ==> count == Consumed(|rows|, debugLimit)
    ensures failure.Some? ==> count < Consumed(|rows|, debugLimit) && step(rows[count]) == Failure(failure.value)
    ensures forall i :: 0 <= i < count ==> step(rows[i]).Success?
    ensures written == Emitted(rows[..count], step)
    ensures |written| <= count
  {
    written := [];
    count := 0;
    failure := None;
    while count < |rows|
      invariant count <= |rows|
      invariant debugLimit > 0 ==> count <= debugLimit
      invariant forall i :: 0 <= i < count ==> step(rows[i]).Success?
      invariant written == Emitted(rows[..count], step)
      invariant |written| <= count
    {
      if debugLimit > 0 && count >= debugLimit {
        break;
      }
      var out := step(rows[count]);
      if out.Failure? {
        failure := Some(out.error);
        return;
      }
      EmittedExtend(rows, count, step);
      if out.value.Some? {
        written := written + [out.value.value];
      }
      count := count + 1;
    }
  }

  /** The header of the output file. */
  function OutputHeader(cols: EdgeColumns): Row {
    if cols.source.Some? then ["subject", "predicate", "object", "source"] else ["subject", "predicate", "object"]
  }

  /** The whole script over already-read files: the column lookups, the node
      maps, the output header and the edge loop. `output` is the content of
      the humanised edges file (empty when a required column is missing). */
  method HumanizeGraph(nodesHeader: Row, nodeRows: seq<Row>, edgesHeader: Row, edgeRows: seq<Row>, debugLimit: int)
    returns (output: seq<Row>, count: nat, failure: Option<HumanizeError>)
    ensures "id" !in nodesHeader ==> failure == Some(MissingNodeColumn("id")) && output == []
    ensures "id" in nodesHeader && "name" !in nodesHeader ==> failure == Some(MissingNodeColumn("name")) && output == []
    ensures "id" in nodesHeader && "name" in nodesHeader && EdgeColumnsOf(edgesHeader).Failure? ==>
      failure == Some(MissingEdgeColumns) && output == []
    ensures NodeColumnsOf(nodesHeader).Success? && EdgeColumnsOf(edgesHeader).Success? ==>
      var nodeCols := NodeColumnsOf(nodesHeader).value;
      var edgeCols := EdgeColumnsOf(edgesHeader).value;
      && |output| >= 1
      && output[0] == OutputHeader(edgeCols)
      && (|output[0]| == 4 <==> "primary_knowledge_source" in edgesHeader)
      && count <= |edgeRows|
      && var step := EdgeStep(edgeCols, BuildNodeMaps(nodeRows, nodeCols), nodeCols.category.Some?);
      && output[1..] == Emitted(edgeRows[..count], step)
      && (forall i :: 0 <= i < count ==> step(edgeRows[i]).Success?)
      && (failure.None? ==> count == Consumed(|edgeRows|, debugLimit))
      && (failure.Some? ==> count < Consumed(|edgeRows|, debugLimit) && step(edgeRows[count]) == Failure(failure.value))
      && (failure.None? ==> |output| == 1 + WideRows(edgeRows[..count], edgeCols))
  {
    var nodeColsOr := NodeColumnsOf(nodesHeader);
    if nodeColsOr.Failure? {
      return [], 0, Some(nodeColsOr.error);
    }
    var edgeColsOr := EdgeColumnsOf(edgesHeader);
    if edgeColsOr.Failure? {
      return [], 0, Some(edgeColsOr.error);
    }
    var nodeCols := nodeColsOr.value;
    var edgeCols := edgeColsOr.value;
    var maps := BuildNodeMaps(nodeRows, nodeCols);
    var written;
    written, count, failure := HumanizeEdges(edgeRows, EdgeStep(edgeCols, maps, nodeCols.category.Some?), debugLimit);
    output := [OutputHeader(edgeCols)] + written;
    if failure.None? {
      assert forall i :: 0 <= i < count ==> edgeRows[..count][i] == edgeRows[i];
      EmittedCountsWideRows(edgeRows[..count], edgeCols, maps, nodeCols.category.Some?);
    }
  }
}

=== FILE: orthologs.dfy ===
/** The Panther reference-genome ortholog ingest. Both genes of a row are
    resolved to an (Entrez gene id, taxon) pair; a row whose gene or
    ortholog does not resolve is skipped, and a resolved row writes both
    gene nodes followed by the homology edge between them. */
module RefGenomeOrthologs {
  import opened Wrappers
  import opened Biolink
  import Sink

  /** The two columns of the Panther file the transform reads. */
  datatype Row = Row(gene: string, ortholog: string)

  const EntrezInfores: string := "infores:entrez"
  const PantherInfores: string := "infores:panther"

  /** The schema's orthology predicate, by its enumeration member name. */
  const OrthologousTo: string := "orthologous_to"

  /** A resolved gene node: id and taxon from the resolver, Entrez source. */
  function ResolvedGene(resolved: (string, string)): Gene
  {
    BareGene(resolved.0).(inTaxon := Some([resolved.1]), source := Some(EntrezInfores))
  }

  /** A gene node sets nothing beyond its id, taxon and source. */
  predicate OnlyResolvedFields(g: Gene) {
    g.symbol == None && g.name == None && g.synonym == None && g.providedBy == None && g.xref == None
  }

  /** What one row writes. `parseGene` stands for the resolver together
      with its UniProt-to-gene map (`None` when a column does not resolve);
      `relation` is the translation table's entry for orthology. */
  function Transform(row: Row, parseGene: string -> Option<(string, string)>, relation: string, uuid: string): (written: seq<Entity>)
    ensures parseGene(row.gene).None? ==> written == []
    ensures parseGene(row.gene).Some? && parseGene(row.ortholog).None? ==> written == []
    ensures |written| == 0 || |written| == 3
    ensures parseGene(row.gene).Some? && parseGene(row.ortholog).Some? ==> |written| == 3
    ensures |written| == 3 ==>
      && parseGene(row.gene).Some? && parseGene(row.ortholog).Some?
      && written[0].Node? && written[1].Node? && written[2].Edge?
      && (written[0].gene.id, written[0].gene.inTaxon) == (parseGene(row.gene).value.0, Some([parseGene(row.gene).value.1]))
      && (written[1].gene.id, written[1].gene.inTaxon) == (parseGene(row.ortholog).value.0, Some([parseGene(row.ortholog).value.1]))
      && written[0].gene.source == Some(EntrezInfores) && written[1].gene.source == Some(EntrezInfores)
      && OnlyResolvedFields(written[0].gene) && OnlyResolvedFields(written[1].gene)
      && var a := written[2].association;
      && a.subject == written[0].gene.id
      && a.obj == written[1].gene.id
      && a.pred == OrthologousTo
      && a.source == Some(PantherInfores)
      && a.relation == Some(relation)
      && a.id == UuidPrefix + uuid
      && a.aggregatorKnowledgeSource == None && a.primaryKnowledgeSource == None
      && a.publications == None && a.qualifiers == None
      && a.knowledgeLevel == None && a.agentType == None
  {
    match parseGene(row.gene)
    case None => []
    case Some(geneId) =>
      match parseGene(row.ortholog)
      case None => []
      case Some(orthologId) =>
        var gene := ResolvedGene(geneId);
        var ortholog := ResolvedGene(orthologId);
        var association := BareAssociation(UuidPrefix + uuid, gene.id, OrthologousTo, ortholog.id).(
          relation := Some(relation),
          source := Some(PantherInfores));
        [Node(gene), Node(ortholog), Edge(association)]
  }

  /** A run over a row source; row `i` gets the fresh identifier `uuids(i)`. */
  function Run(rows: seq<Row>, parseGene: string -> Option<(string, string)>, relation: string, uuids: nat -> string): seq<Entity>
  {
    Sink.Run(rows, (i: nat, row: Row) => Transform(row, parseGene, relation, uuids(i)))
  }

  /** Over a whole run, every edge links two genes the resolver produced and
      carries the Panther source; nothing is written unless both sides of
      some row resolve. */
  lemma RunInvariant(rows: seq<Row>, parseGene: string -> Option<(string, string)>, relation: string, uuids: nat -> string)
    ensures forall e :: e in Run(rows, parseGene, relation, uuids) && e.Edge? ==>
      && e.association.source == Some(PantherInfores)
      && e.association.pred == OrthologousTo
      && UuidPrefix <= e.association.id
      && exists i :: 0 <= i < |rows| && parseGene(rows[i].gene).Some? && parseGene(rows[i].ortholog).Some?
                     && e.association.subject == parseGene(rows[i].gene).value.0
                     && e.association.obj == parseGene(rows[i].ortholog).value.0
    ensures Run(rows, parseGene, relation, uuids) == [] <==>
      forall i :: 0 <= i < |rows| ==> parseGene(rows[i].gene).None? || parseGene(rows[i].ortholog).None?
  {
    var f := (i: nat, row: Row) => Transform(row, parseGene, relation, uuids(i));
    forall e | e in Run(rows, parseGene, relation, uuids) && e.Edge?
      ensures && e.association.source == Some(PantherInfores)
              && e.association.pred == OrthologousTo
              && UuidPrefix <= e.association.id
              && exists i :: 0 <= i < |rows| && parseGene(rows[i].gene).Some? && parseGene(rows[i].ortholog).Some?
                             && e.association.subject == parseGene(rows[i].gene).value.0
                             && e.association.obj == parseGene(rows[i].ortholog).value.0
    {
      Sink.RunMember(rows, f, e);
      var i :| 0 <= i < |rows| && e in f(i, rows[i]);
      assert f(i, rows[i]) == Transform(rows[i], parseGene, relation, uuids(i));
    }
    Sink.RunEmptyIff(rows, f);
    forall i | 0 <= i < |rows|
      ensures f(i, rows[i]) == [] <==> parseGene(rows[i].gene).None? || parseGene(rows[i].ortholog).None?
    {
      assert f(i, rows[i]) == Transform(rows[i], parseGene, relation, uuids(i));
    }
  }
}

=== FILE: pmc.dfy ===
/** The PubMed Central converter: PMC ids taken from file names or from the
    article XML, duplicate detection by PMC id, the choice of files to
    convert and their output names, and the assembly of an article's plain
    text from its title, abstract, body and back-matter sections. */
module PmcText {
  import opened Wrappers
  import opened Strings

  // ---------------------------------------------------------------------
  // PMC ids in file names: the first match of `PMC\d+`

  const PmcPrefix: string := "PMC"

  /** A match of `PMC\d+` starts at `i`. */
  predicate MatchesAt(s: string, i: nat) {
    i + 3 < |s| && s[i..i + 3] == PmcPrefix && IsDigitAscii(s[i + 3])
  }

  /** The end of the run of digits that starts at `j`. */
  function DigitRunEnd(s: string, j: nat): (k: nat)
    requires j <= |s|
    ensures j <= k <= |s|
    ensures forall m :: j <= m < k ==> IsDigitAscii(s[m])
    ensures k == |s| || !IsDigitAscii(s[k])
    decreases |s| - j
  {
    if j < |s| && IsDigitAscii(s[j]) then DigitRunEnd(s, j + 1) else j
  }

  /** The first position at or after `from` where a match starts. */
  function FirstMatch(s: string, from: nat): (r: Option<nat>)
    ensures r.None? ==> forall i :: from <= i ==> !MatchesAt(s, i)
    ensures r.Some? ==> from <= r.value && MatchesAt(s, r.value)
    ensures r.Some? ==> forall i :: from <= i < r.value ==> !MatchesAt(s, i)
    decreases |s| - from
  {
    if from + 3 >= |s| then None
    else if MatchesAt(s, from) then Some(from)
    else FirstMatch(s, from + 1)
  }

  /** The id a file name carries: the leftmost `PMC` followed by the
      longest run of digits there, or nothing when the name has no match. */
  function PmcIdFromFilename(name: string): (r: Option<string>)
    ensures r.None? <==> forall i :: !MatchesAt(name, i)
    ensures r.Some? ==> exists i: nat ::
      && MatchesAt(name, i)
      && (forall k :: 0 <= k < i ==> !MatchesAt(name, k))
      && r.value == name[i..DigitRunEnd(name, i + 3)]
    ensures r.Some? ==> PmcPrefix <= r.value && |r.value| > 3
    ensures r.Some? ==> forall m :: 3 <= m < |r.value| ==> IsDigitAscii(r.value[m])
  {
    match FirstMatch(name, 0)
    case None => None
    case Some(i) =>
      var id := name[i..DigitRunEnd(name, i + 3)];
      assert id[..3] == name[i..i + 3];
      assert forall m :: 3 <= m < |id| ==> id[m] == name[i + m];
      Some(id)
  }

  /** Digits only, at least one. */
  predicate IsDigits(s: string) {
    |s| > 0 && forall m :: 0 <= m < |s| ==> IsDigitAscii(s[m])
  }

  /** A name made of a part without a match, an id, and a part that does not
      start with a digit yields exactly that id: no earlier match can begin
      in the first part, since the id's digits come after its own `PMC`. */
  lemma FilenameIdRoundTrip(before: string, digits: string, after: string)
    requires forall i :: !MatchesAt(before, i)
    requires IsDigits(digits)
    requires after == [] || !IsDigitAscii(after[0])
    ensures PmcIdFromFilename(before + (PmcPrefix + digits) + after) == Some(PmcPrefix + digits)
  {
    var name := before + (PmcPrefix + digits) + after;
    var n := |before|;
    assert name[n..n + 3] == PmcPrefix;
    assert name[n + 3] == digits[0];
    assert MatchesAt(name, n);
    forall k | 0 <= k < n ensures !MatchesAt(name, k) {
      if k + 3 < n {
        assert name[k..k + 3] == before[k..k + 3];
        assert name[k + 3] == before[k + 3];
        assert !MatchesAt(before, k);
      } else {
        // a match here would need a digit among the letters of `PMC`
        assert name[k + 3] == PmcPrefix[k + 3 - n];
      }
    }
    var end := DigitRunEnd(name, n + 3);
    forall m | n + 3 <= m < n + 3 + |digits| ensures IsDigitAscii(name[m]) {
      assert name[m] == digits[m - n - 3];
    }
    DigitRunPast(name, n + 3, n + 3 + |digits|);
    assert end == n + 3 + |digits|;
    var r := PmcIdFromFilename(name);
    var i: nat :| MatchesAt(name, i) && (forall k :: 0 <= k < i ==> !MatchesAt(name, k)) && r.value == name[i..DigitRunEnd(name, i + 3)];
    assert i == n;
    MiddleSlice(before, PmcPrefix + digits, after);
  }

  lemma MiddleSlice(a: string, b: string, c: string)
    ensures (a + b + c)[|a|..|a| + |b|] == b
  {
  }

  /** A run of digits from `j` to `k`, followed by a non-digit or the end,
      ends at `k`. */
  lemma {:induction false} DigitRunPast(s: string, j: nat, k: nat)
    requires j <= k <= |s|
    requires forall m :: j <= m < k ==> IsDigitAscii(s[m])
    requires k == |s| || !IsDigitAscii(s[k])
    ensures DigitRunEnd(s, j) == k
    decreases k - j
  {
    if j < k {
      DigitRunPast(s, j + 1, k);
    }
  }

  // ---------------------------------------------------------------------
  // PMC ids in the article XML, paths and stems

  /** The text of the article's `pmc` id element, with `PMC` prepended when
      it does not already start with it. */
  function NormalizeXmlId(text: string): (r: string)
    ensures PmcPrefix <= r
    ensures r == text <==> PmcPrefix <= text
    ensures |text| <= |r| && r[|r| - |text|..] == text
  {
    if PmcPrefix <= text then text else PmcPrefix + text
  }

  /** Normalising twice is normalising once. */
  lemma NormalizeIdempotent(text: string)
    ensures NormalizeXmlId(NormalizeXmlId(text)) == NormalizeXmlId(text)
  {
  }

  /** The id found in a file's XML. `xmlIdText(path)` is the text of the
      article's `pmc` id element, or `None` when the element is missing or
      the file cannot be read or parsed. */
  function XmlPmcId(path: string, xmlIdText: string -> Option<string>): (r: Option<string>)
    ensures r.None? <==> xmlIdText(path).None?
    ensures r.Some? ==> PmcPrefix <= r.value && r.value == NormalizeXmlId(xmlIdText(path).value)
  {
    match xmlIdText(path)
    case None => None
    case Some(text) => Some(NormalizeXmlId(text))
  }

  /** Python's `s.rfind(c)`. */
  function LastIndex(s: string, c: char): (i: int)
    ensures -1 <= i < |s|
    ensures i >= 0 ==> s[i] == c && c !in s[i + 1..]
    ensures i == -1 ==> c !in s
    decreases |s|
  {
    if |s| == 0 then -1
    else if s[|s| - 1] == c then |s| - 1
    else
      var i := LastIndex(s[..|s| - 1], c);
      assert s == s[..|s| - 1] + [s[|s| - 1]];
      i
  }

  /** The last component of a path: the text after its last '/'. */
  function Basename(path: string): (r: string)
    ensures '/' !in r
    ensures |r| <= |path| && path[|path| - |r|..] == r
    ensures |r| < |path| ==> path[|path| - |r| - 1] == '/'
  {
    path[LastIndex(path, '/') + 1..]
  }

  /** The file name without its suffix; a suffix is the text from the last
      '.' on, counted only when that '.' is neither the first nor the last
      character. */
  function Stem(name: string): (r: string)
    ensures r <= name
    ensures r != name ==> 0 < |r| < |name| - 1 && name[|r|] == '.' && '.' !in name[|r| + 1..]
    ensures r == name && |name| > 0 ==> '.' !in name[1..] || name[|name| - 1] == '.'
  {
    var i := LastIndex(name, '.');
    if 0 < i < |name| - 1 then name[..i] else name
  }

  /** The PMC id of a file: from its name when the name has one, otherwise
      from its XML. */
  function PmcIdOf(path: string, xmlIdText: string -> Option<string>): (r: Option<string>)
    ensures PmcIdFromFilename(Basename(path)).Some? ==> r == PmcIdFromFilename(Basename(path))
    ensures PmcIdFromFilename(Basename(path)).None? ==> r == XmlPmcId(path, xmlIdText)
    ensures r.Some? ==> PmcPrefix <= r.value
  {
    var fromName := PmcIdFromFilename(Basename(path));
    if fromName.Some? then fromName else XmlPmcId(path, xmlIdText)
  }

  /** `PmcIdOf` as a function of the path alone. */
  function IdOf(xmlIdText: string -> Option<string>): string -> Option<string>
  {
    path => PmcIdOf(path, xmlIdText)
  }

  // ---------------------------------------------------------------------
  // Duplicate detection

  /** The result of the duplicate scan: the insertion-ordered dictionary
      from PMC id to files, as its key order and its map, and the files for
      which no id was found. */
  datatype Partition = Partition(order: seq<string>, groups: map<string, seq<string>>, withoutId: seq<string>)

  /** The files of `files` whose id is `id`, in input order. */
  function WithId(files: seq<string>, idOf: string -> Option<string>, id: Option<string>): seq<string>
    decreases |files|
  {
    if |files| == 0 then []
    else WithId(files[..|files| - 1], idOf, id) + (if idOf(files[|files| - 1]) == id then [files[|files| - 1]] else [])
  }

  /** One file read into the partition: appended to the group of its id
      (opening the group when the id is new), or to the files without one.
      A file with an id always ends up under a key, and keys stay listed
      once each. */
  function AddFile(p: Partition, file: string, id: Option<string>): (r: Partition)
    ensures id.Some? ==> id.value in r.groups
    ensures WellFormed(p) ==> WellFormed(r)
  {
    match id
    case None => p.(withoutId := p.withoutId + [file])
    case Some(key) =>
      if key in p.groups then p.(groups := p.groups[key := p.groups[key] + [file]])
      else Partition(p.order + [key], p.groups[key := [file]], p.withoutId)
  }

  /** The duplicate scan over `files`, in order. */
  function DetectDuplicates(files: seq<string>, idOf: string -> Option<string>): (r: Partition)
    ensures WellFormed(r)
    decreases |files|
  {
    if |files| == 0 then Partition([], map[], [])
    else AddFile(DetectDuplicates(files[..|files| - 1], idOf), files[|files| - 1], idOf(files[|files| - 1]))
  }

  /** Some input file has the PMC id `id`. */
  predicate Occurs(files: seq<string>, idOf: string -> Option<string>, id: string) {
    exists p :: 0 <= p < |files| && idOf(files[p]) == Some(id)
  }

  /** No key is listed twice. */
  predicate Distinct(order: seq<string>) {
    forall i, j :: 0 <= i < j < |order| ==> order[i] != order[j]
  }

  /** The key order lists every key of the dictionary exactly once. */
  predicate WellFormed(p: Partition) {
    && Distinct(p.order)
    && (forall key :: key in p.order ==> key in p.groups)
    && (forall key :: key in p.groups ==> key in p.order)
  }

  lemma {:induction false} WithIdMember(files: seq<string>, idOf: string -> Option<string>, id: Option<string>, file: string)
    ensures file in WithId(files, idOf, id) <==> file in files && idOf(file) == id
    decreases |files|
  {
    if |files| > 0 {
      var n := |files| - 1;
      WithIdMember(files[..n], idOf, id, file);
      assert files == files[..n] + [files[n]];
    }
  }

  /** `WithId` is empty exactly when no file has the id; otherwise its head
      is the first file that has it. */
  lemma {:induction false} WithIdFirst(files: seq<string>, idOf: string -> Option<string>, id: Option<string>)
    ensures WithId(files, idOf, id) == [] <==> forall p :: 0 <= p < |files| ==> idOf(files[p]) != id
    ensures WithId(files, idOf, id) != [] ==> exists p ::
      && 0 <= p < |files| && files[p] == WithId(files, idOf, id)[0] && idOf(files[p]) == id
      && forall q :: 0 <= q < p ==> idOf(files[q]) != id
    decreases |files|
  {
    if |files| > 0 {
      var n := |files| - 1;
      WithIdFirst(files[..n], idOf, id);
      assert forall p :: 0 <= p < n ==> files[..n][p] == files[p];
    }
  }

  lemma OccursExtend(files: seq<string>, idOf: string -> Option<string>, id: string)
    requires |files| > 0
    ensures Occurs(files, idOf, id) <==> Occurs(files[..|files| - 1], idOf, id) || idOf(files[|files| - 1]) == Some(id)
  {
    var n := |files| - 1;
    if Occurs(files, idOf, id) {
      var p :| 0 <= p < |files| && idOf(files[p]) == Some(id);
      if p < n { assert files[..n][p] == files[p]; }
    }
    if Occurs(files[..n], idOf, id) {
      var p :| 0 <= p < n && idOf(files[..n][p]) == Some(id);
      assert files[..n][p] == files[p];
    }
  }

  /** The dictionary's keys are listed once each, in the order and the map
      alike, and they are exactly the ids that occur. */
  lemma {:induction false} DetectDuplicatesKeys(files: seq<string>, idOf: string -> Option<string>)
    ensures var d := DetectDuplicates(files, idOf);
      && Distinct(d.order)
      && (forall id :: id in d.order <==> id in d.groups)
      && (forall id :: id in d.groups <==> Occurs(files, idOf, id))
    decreases |files|
  {
    if |files| > 0 {
      DetectDuplicatesKeys(files[..|files| - 1], idOf);
      forall id ensures Occurs(files, idOf, id) <==> Occurs(files[..|files| - 1], idOf, id) || idOf(files[|files| - 1]) == Some(id) {
        OccursExtend(files, idOf, id);
      }
    }
  }

  /** Each group holds the files with its id, in input order; so do the
      files without an id. */
  lemma {:induction false} DetectDuplicatesGroups(files: seq<string>, idOf: string -> Option<string>)
    ensures var d := DetectDuplicates(files, idOf);
      && (forall id :: id in d.groups ==> d.groups[id] == WithId(files, idOf, Some(id)))
      && d.withoutId == WithId(files, idOf, None)
    decreases |files|
  {
    if |files| > 0 {
      var n := |files| - 1;
      DetectDuplicatesGroups(files[..n], idOf);
      DetectDuplicatesKeys(files[..n], idOf);
      var key := idOf(files[n]);
      if key.Some? && !Occurs(files[..n], idOf, key.value) {
        WithIdFirst(files[..n], idOf, key);
      }
    }
  }

  /** The dictionary is well formed and holds exactly what the scan put in
      it: its keys are listed once each, they are the ids that occur, each
      group is the files with its id in input order, and the files without
      an id are kept in input order too. */
  lemma DetectDuplicatesContents(files: seq<string>, idOf: string -> Option<string>)
    ensures var d := DetectDuplicates(files, idOf);
      && Distinct(d.order)
      && (forall id :: id in d.order <==> id in d.groups)
      && (forall id :: id in d.groups <==> Occurs(files, idOf, id))
      && (forall id :: id in d.groups ==> d.groups[id] == WithId(files, idOf, Some(id)))
      && d.withoutId == WithId(files, idOf, None)
  {
    DetectDuplicatesKeys(files, idOf);
    DetectDuplicatesGroups(files, idOf);
  }

  /** Every file with an id lands in the group of that id and in no other
      list; every file without one lands among the files without an id. */
  lemma FileLandsOnce(files: seq<string>, idOf: string -> Option<string>, file: string)
    requires file in files
    ensures var d := DetectDuplicates(files, idOf);
      && (idOf(file).None? ==> file in d.withoutId && forall id :: id in d.groups ==> file !in d.groups[id])
      && (idOf(file).Some? ==>
            && file !in d.withoutId
            && idOf(file).value in d.groups && file in d.groups[idOf(file).value]
            && forall id :: id in d.groups && id != idOf(file).value ==> file !in d.groups[id])
  {
    DetectDuplicatesContents(files, idOf);
    var d := DetectDuplicates(files, idOf);
    WithIdMember(files, idOf, None, file);
    forall id | id in d.groups ensures file in d.groups[id] <==> idOf(file) == Some(id) {
      WithIdMember(files, idOf, Some(id), file);
    }
    if idOf(file).Some? {
      var p :| 0 <= p < |files| && files[p] == file;
      assert Occurs(files, idOf, idOf(file).value);
    }
  }

  /** All files of the groups, key after key. */
  function Flatten(order: seq<string>, groups: map<string, seq<string>>): seq<string>
    decreases |order|
  {
    if |order| == 0 then []
    else (if order[0] in groups then groups[order[0]] else []) + Flatten(order[1..], groups)
  }

  /** Every file of a partition, the grouped ones first. */
  function AllFiles(d: Partition): seq<string> {
    Flatten(d.order, d.groups) + d.withoutId
  }

  lemma {:induction false} FlattenFrame(order: seq<string>, groups: map<string, seq<string>>, key: string, files: seq<string>)
    requires key !in order
    ensures Flatten(order, groups[key := files]) == Flatten(order, groups)
    decreases |order|
  {
    if |order| > 0 {
      FlattenFrame(order[1..], groups, key, files);
    }
  }

  lemma {:induction false} FlattenAppend(order: seq<string>, groups: map<string, seq<string>>, key: string, file: string)
    requires Distinct(order) && key in order && key in groups
    ensures multiset(Flatten(order, groups[key := groups[key] + [file]])) == multiset(Flatten(order, groups)) + multiset{file}
    decreases |order|
  {
    if order[0] == key {
      assert key !in order[1..];
      FlattenFrame(order[1..], groups, key, groups[key] + [file]);
    } else {
      assert Distinct(order[1..]);
      FlattenAppend(order[1..], groups, key, file);
    }
  }

  lemma {:induction false} FlattenNewKey(order: seq<string>, groups: map<string, seq<string>>, key: string, file: string)
    requires key !in order
    ensures Flatten(order + [key], groups[key := [file]]) == Flatten(order, groups) + [file]
    decreases |order|
  {
    if |order| == 0 {
      assert Flatten([key], groups[key := [file]]) == [file] + Flatten([], groups[key := [file]]);
    } else {
      assert (order + [key])[1..] == order[1..] + [key];
      FlattenNewKey(order[1..], groups, key, file);
    }
  }

  lemma AddWithoutId(d: Partition, file: string)
    ensures multiset(AllFiles(AddFile(d, file, None))) == multiset(AllFiles(d)) + multiset{file}
  {
    assert AllFiles(AddFile(d, file, None)) == Flatten(d.order, d.groups) + (d.withoutId + [file]);
  }

  lemma AddToGroup(d: Partition, file: string, key: string)
    requires Distinct(d.order) && key in d.order && key in d.groups
    ensures multiset(AllFiles(AddFile(d, file, Some(key)))) == multiset(AllFiles(d)) + multiset{file}
  {
    var groups := d.groups[key := d.groups[key] + [file]];
    assert AddFile(d, file, Some(key)) == Partition(d.order, groups, d.withoutId);
    FlattenAppend(d.order, d.groups, key, file);
  }

  lemma AddNewGroup(d: Partition, file: string, key: string)
    requires key !in d.order && key !in d.groups
    ensures multiset(AllFiles(AddFile(d, file, Some(key)))) == multiset(AllFiles(d)) + multiset{file}
  {
    assert AddFile(d, file, Some(key)) == Partition(d.order + [key], d.groups[key := [file]], d.withoutId);
    FlattenNewKey(d.order, d.groups, key, file);
    assert AllFiles(AddFile(d, file, Some(key))) == Flatten(d.order, d.groups) + [file] + d.withoutId;
  }

  /** Reading one file into a well-formed partition adds exactly that file. */
  lemma AddFileAddsOne(d: Partition, file: string, id: Option<string>)
    requires WellFormed(d)
    ensures multiset(AllFiles(AddFile(d, file, id))) == multiset(AllFiles(d)) + multiset{file}
  {
    match id
    case None => AddWithoutId(d, file);
    case Some(key) =>
      if key in d.groups {
        AddToGroup(d, file, key);
      } else {
        AddNewGroup(d, file, key);
      }
  }

  /** The scan never loses or duplicates a file: the files of all groups
      and the files without an id together are the input, as a multiset. */
  lemma {:induction false} DetectDuplicatesPartitions(files: seq<string>, idOf: string -> Option<string>)
    ensures multiset(AllFiles(DetectDuplicates(files, idOf))) == multiset(files)
    decreases |files|
  {
    if |files| > 0 {
      var n := |files| - 1;
      var d := DetectDuplicates(files[..n], idOf);
      calc {
        multiset(AllFiles(DetectDuplicates(files, idOf)));
        { AddFileAddsOne(d, files[n], idOf(files[n])); }
        multiset(AllFiles(d)) + multiset{files[n]};
        { DetectDuplicatesPartitions(files[..n], idOf); }
        multiset(files[..n]) + multiset{files[n]};
        { assert files == files[..n] + [files[n]]; }
        multiset(files);
      }
    }
  }

  /** The first file with id `a` comes before any file with id `b`. */
  predicate SeenBefore(files: seq<string>, idOf: string -> Option<string>, a: string, b: string) {
    exists p :: 0 <= p < |files| && idOf(files[p]) == Some(a) && forall q :: 0 <= q <= p ==> idOf(files[q]) != Some(b)
  }

  lemma SeenBeforeExtend(files: seq<string>, idOf: string -> Option<string>, a: string, b: string)
    requires |files| > 0 && SeenBefore(files[..|files| - 1], idOf, a, b)
    ensures SeenBefore(files, idOf, a, b)
  {
    var n := |files| - 1;
    var p :| 0 <= p < n && idOf(files[..n][p]) == Some(a) && forall q :: 0 <= q <= p ==> idOf(files[..n][q]) != Some(b);
    assert forall q :: 0 <= q <= p ==> files[..n][q] == files[q];
  }

  lemma SeenBeforeNew(files: seq<string>, idOf: string -> Option<string>, a: string, b: string)
    requires |files| > 0 && Occurs(files[..|files| - 1], idOf, a) && !Occurs(files[..|files| - 1], idOf, b)
    ensures SeenBefore(files, idOf, a, b)
  {
    var n := |files| - 1;
    var p :| 0 <= p < n && idOf(files[..n][p]) == Some(a);
    forall q | 0 <= q <= p ensures idOf(files[q]) != Some(b) {
      assert files[..n][q] == files[q];
    }
  }

  /** One more file leaves the key order as it was or appends one key whose
      id does not occur in the earlier files. */
  lemma OrderGrowsByNewKey(files: seq<string>, idOf: string -> Option<string>)
    requires |files| > 0
    ensures var g := DetectDuplicates(files[..|files| - 1], idOf).order;
      var r := DetectDuplicates(files, idOf).order;
      && |g| <= |r| <= |g| + 1
      && r[..|g|] == g
      && (|r| == |g| + 1 ==> !Occurs(files[..|files| - 1], idOf, r[|g|]))
  {
    DetectDuplicatesKeys(files[..|files| - 1], idOf);
    var g := DetectDuplicates(files[..|files| - 1], idOf).order;
    var r := DetectDuplicates(files, idOf).order;
    assert r == g || r == g + [r[|r| - 1]];
  }

  /** Keys are ordered by the first appearance of their id. */
  lemma {:induction false} KeysInFirstAppearanceOrder(files: seq<string>, idOf: string -> Option<string>)
    ensures var order := DetectDuplicates(files, idOf).order;
      forall i, j :: 0 <= i < j < |order| ==> SeenBefore(files, idOf, order[i], order[j])
    decreases |files|
  {
    if |files| > 0 {
      var n := |files| - 1;
      KeysInFirstAppearanceOrder(files[..n], idOf);
      DetectDuplicatesKeys(files[..n], idOf);
      OrderGrowsByNewKey(files, idOf);
      var g := DetectDuplicates(files[..n], idOf).order;
      var r := DetectDuplicates(files, idOf).order;
      forall i, j | 0 <= i < j < |r| ensures SeenBefore(files, idOf, r[i], r[j]) {
        assert r[i] == g[i];
        if j < |g| {
          assert r[j] == g[j];
          SeenBeforeExtend(files, idOf, g[i], g[j]);
        } else {
          // the last key is new: its id does not occur before the last file
          assert g[i] in g;
          SeenBeforeNew(files, idOf, g[i], r[j]);
        }
      }
    }
  }

  // ---------------------------------------------------------------------
  // Which files are converted, and under which names

  /** Every key has a non-empty group. */
  predicate GroupsNonEmpty(d: Partition) {
    forall k :: 0 <= k < |d.order| ==> d.order[k] in d.groups && |d.groups[d.order[k]]| > 0
  }

  lemma DetectDuplicatesNonEmpty(files: seq<string>, idOf: string -> Option<string>)
    ensures GroupsNonEmpty(DetectDuplicates(files, idOf))
  {
    DetectDuplicatesContents(files, idOf);
    var d := DetectDuplicates(files, idOf);
    forall k | 0 <= k < |d.order| ensures d.order[k] in d.groups && |d.groups[d.order[k]]| > 0 {
      assert d.order[k] in d.order;
      WithIdFirst(files, idOf, Some(d.order[k]));
    }
  }

  /** The files the converter processes: with duplicate handling, the first
      file of each group in key order; without it, every file. */
  function SelectFiles(files: seq<string>, idOf: string -> Option<string>, handleDuplicates: bool): (r: seq<string>)
    ensures !handleDuplicates ==> r == files
    ensures handleDuplicates ==> |r| == |DetectDuplicates(files, idOf).order|
  {
    if handleDuplicates then
      var d := DetectDuplicates(files, idOf);
      DetectDuplicatesNonEmpty(files, idOf);
      seq(|d.order|, k requires 0 <= k < |d.order| => d.groups[d.order[k]][0])
    else files
  }

  /** The `k`-th processed file is the first input file with the `k`-th key. */
  lemma SelectedAt(files: seq<string>, idOf: string -> Option<string>, k: nat)
    requires k < |DetectDuplicates(files, idOf).order|
    ensures var r := SelectFiles(files, idOf, true);
      && r[k] in files && idOf(r[k]) == Some(DetectDuplicates(files, idOf).order[k])
      && exists p :: 0 <= p < |files| && files[p] == r[k] && forall q :: 0 <= q < p ==> idOf(files[q]) != idOf(r[k])
  {
    var d := DetectDuplicates(files, idOf);
    DetectDuplicatesContents(files, idOf);
    assert d.order[k] in d.order;
    WithIdFirst(files, idOf, Some(d.order[k]));
    WithIdMember(files, idOf, Some(d.order[k]), SelectFiles(files, idOf, true)[k]);
  }

  /** The processed files carry pairwise distinct ids, in key order. */
  lemma SelectedIdsDistinct(files: seq<string>, idOf: string -> Option<string>)
    ensures var r := SelectFiles(files, idOf, true);
      && (forall k :: 0 <= k < |r| ==> idOf(r[k]) == Some(DetectDuplicates(files, idOf).order[k]))
      && (forall i, j :: 0 <= i < j < |r| ==> idOf(r[i]) != idOf(r[j]))
  {
    var r := SelectFiles(files, idOf, true);
    forall k | 0 <= k < |r| ensures idOf(r[k]) == Some(DetectDuplicates(files, idOf).order[k]) {
      SelectedAt(files, idOf, k);
    }
  }

  /** Every id that occurs among the inputs is processed. */
  lemma SelectedCoversIds(files: seq<string>, idOf: string -> Option<string>)
    ensures var r := SelectFiles(files, idOf, true);
      forall p :: 0 <= p < |files| && idOf(files[p]).Some? ==> exists k :: 0 <= k < |r| && idOf(r[k]) == idOf(files[p])
  {
    var r := SelectFiles(files, idOf, true);
    var d := DetectDuplicates(files, idOf);
    DetectDuplicatesKeys(files, idOf);
    SelectedIdsDistinct(files, idOf);
    forall p | 0 <= p < |files| && idOf(files[p]).Some?
      ensures exists k :: 0 <= k < |r| && idOf(r[k]) == idOf(files[p])
    {
      var id := idOf(files[p]).value;
      assert Occurs(files, idOf, id);
      var k :| 0 <= k < |d.order| && d.order[k] == id;
      assert idOf(r[k]) == Some(id);
    }
  }

  /** Each processed file is an input file, and the first one with its id. */
  lemma SelectedAreFirst(files: seq<string>, idOf: string -> Option<string>)
    ensures var r := SelectFiles(files, idOf, true);
      forall k :: 0 <= k < |r| ==> r[k] in files && exists p ::
        0 <= p < |files| && files[p] == r[k] && forall q :: 0 <= q < p ==> idOf(files[q]) != idOf(r[k])
  {
    var r := SelectFiles(files, idOf, true);
    forall k | 0 <= k < |r|
      ensures r[k] in files
      ensures exists p :: 0 <= p < |files| && files[p] == r[k] && forall q :: 0 <= q < p ==> idOf(files[q]) != idOf(r[k])
    {
      SelectedAt(files, idOf, k);
    }
  }

  /** With duplicate handling, exactly one file per PMC id is processed,
      namely the first input file with that id; files without an id are
      never processed. */
  lemma SelectedFiles(files: seq<string>, idOf: string -> Option<string>)
    ensures var r := SelectFiles(files, idOf, true);
      && (forall k :: 0 <= k < |r| ==> r[k] in files && idOf(r[k]).Some?)
      && (forall i, j :: 0 <= i < j < |r| ==> idOf(r[i]) != idOf(r[j]))
      && (forall p :: 0 <= p < |files| && idOf(files[p]).Some? ==> exists k :: 0 <= k < |r| && idOf(r[k]) == idOf(files[p]))
      && (forall k :: 0 <= k < |r| ==> exists p ::
            0 <= p < |files| && files[p] == r[k] && forall q :: 0 <= q < p ==> idOf(files[q]) != idOf(r[k]))
  {
    SelectedIdsDistinct(files, idOf);
    SelectedCoversIds(files, idOf);
    SelectedAreFirst(files, idOf);
  }

  /** The stem of the output file: the PMC id when there is one, otherwise
      the file's own stem. */
  function OutputStem(path: string, xmlIdText: string -> Option<string>): (r: string)
    ensures PmcIdOf(path, xmlIdText).Some? ==> r == PmcIdOf(path, xmlIdText).value
    ensures PmcIdOf(path, xmlIdText).None? ==> r == Stem(Basename(path))
  {
    match PmcIdOf(path, xmlIdText)
    case Some(id) => id
    case None => Stem(Basename(path))
  }

  const TextSuffix: string := ".txt"

  /** One converted file: its output name and its text. */
  datatype Output = Output(name: string, text: string)

  /** The whole conversion over already-read inputs. `article(path)` is the
      parsed article of a file, or the parser's error message. */
  function Convert(files: seq<string>, xmlIdText: string -> Option<string>, article: string -> Result<Article, string>, handleDuplicates: bool): (r: seq<Output>)
    ensures |r| == |SelectFiles(files, IdOf(xmlIdText), handleDuplicates)|
    ensures forall k :: 0 <= k < |r| ==>
      var path := SelectFiles(files, IdOf(xmlIdText), handleDuplicates)[k];
      r[k] == Output(OutputStem(path, xmlIdText) + TextSuffix, ExtractText(article(path)))
  {
    var selected := SelectFiles(files, IdOf(xmlIdText), handleDuplicates);
    seq(|selected|, k requires 0 <= k < |selected| =>
      Output(OutputStem(selected[k], xmlIdText) + TextSuffix, ExtractText(article(selected[k]))))
  }

  lemma SuffixCancels(a: string, b: string, suffix: string)
    ensures a + suffix == b + suffix <==> a == b
  {
    if a + suffix == b + suffix {
      assert a == (a + suffix)[..|a|];
      assert b == (b + suffix)[..|b|];
    }
  }

  /** With duplicate handling no two outputs share a name, so no output
      file is overwritten; every name is a PMC id plus the suffix. */
  lemma OutputNamesDistinct(files: seq<string>, xmlIdText: string -> Option<string>, article: string -> Result<Article, string>)
    ensures var r := Convert(files, xmlIdText, article, true);
      && (forall i, j :: 0 <= i < j < |r| ==> r[i].name != r[j].name)
      && (forall k :: 0 <= k < |r| ==> PmcPrefix <= r[k].name)
  {
    var idOf := IdOf(xmlIdText);
    var selected := SelectFiles(files, idOf, true);
    var r := Convert(files, xmlIdText, article, true);
    SelectedFiles(files, idOf);
    forall k | 0 <= k < |r| ensures r[k].name == PmcIdOf(selected[k], xmlIdText).value + TextSuffix {
      assert idOf(selected[k]) == PmcIdOf(selected[k], xmlIdText);
    }
    forall i, j | 0 <= i < j < |r| ensures r[i].name != r[j].name {
      assert idOf(selected[i]) == PmcIdOf(selected[i], xmlIdText);
      assert idOf(selected[j]) == PmcIdOf(selected[j], xmlIdText);
      SuffixCancels(PmcIdOf(selected[i], xmlIdText).value, PmcIdOf(selected[j], xmlIdText).value, TextSuffix);
    }
  }

  // ---------------------------------------------------------------------
  // The plain text of an article

  /** A section: its title element's text, when it has one, and the text
      of its paragraphs. */
  datatype Section = Section(title: Option<string>, paragraphs: seq<string>)

  /** What the converter reads from an article: the article title, when
      present; the paragraphs of the abstract (none when there is no
      abstract); and the top-level sections of the body and of the back
      matter (none when the element is missing). */
  datatype Article = Article(title: Option<string>, abstractParagraphs: seq<string>, body: seq<Section>, back: seq<Section>)

  const NoContent: string := "No content extracted"
  const ParseErrorPrefix: string := "Error parsing XML: "
  const SectionSeparator: string := "\n\n"

  /** A section's header and paragraphs; the header is followed by one line
      break and the paragraphs are separated by blank lines. */
  function RenderSection(header: string, paragraphs: seq<string>): (r: string)
    ensures "#" <= header ==> |r| > 0 && r[0] == '#'
    ensures |paragraphs| > 0 ==> header + "\n" + paragraphs[0] <= r
    ensures |paragraphs| == 1 ==> r == header + "\n" + paragraphs[0]
  {
    if |paragraphs| > 0 then JoinStartsWithFirst(paragraphs, SectionSeparator); header + "\n" + Join(paragraphs, SectionSeparator)
    else header + "\n"
  }

  function TitlePart(article: Article): seq<string> {
    if article.title.Some? then ["# Title\n" + article.title.value] else []
  }

  /** The abstract, when it has paragraphs, as one part whose paragraphs are
      separated by single spaces. */
  function AbstractPart(article: Article): (r: seq<string>)
    ensures |r| == if |article.abstractParagraphs| > 0 then 1 else 0
    ensures |r| == 1 ==> "# Abstract\n" + article.abstractParagraphs[0] <= r[0]
    ensures |article.abstractParagraphs| == 1 ==> r == ["# Abstract\n" + article.abstractParagraphs[0]]
  {
    if |article.abstractParagraphs| > 0 then
      JoinStartsWithFirst(article.abstractParagraphs, " ");
      ["# Abstract\n" + Join(article.abstractParagraphs, " ")]
    else []
  }

  /** A body section is kept when it has paragraphs; an untitled one is
      headed "## Section". */
  function BodySection(section: Section): seq<string> {
    if |section.paragraphs| > 0 then
      [RenderSection(if section.title.Some? then "## " + section.title.value else "## Section", section.paragraphs)]
    else []
  }

  /** The rendered sections of a list, in order. */
  function Parts(sections: seq<Section>, render: Section -> seq<string>): seq<string>
    decreases |sections|
  {
    if |sections| == 0 then [] else render(sections[0]) + Parts(sections[1..], render)
  }

  /** The parts the body contributes, in document order. */
  function BodyPart(article: Article): seq<string> {
    Parts(article.body, BodySection)
  }

  /** The parts the back matter contributes, in document order. */
  function BackPart(article: Article): seq<string> {
    Parts(article.back, BackSection)
  }

  /** The title mentions a conclusion, in any letter case. */
  predicate IsConclusionTitle(title: string) {
    HasSubstring(Lower(title), "conclusion")
  }

  /** A back-matter section is kept when it is titled as a conclusion and
      has paragraphs. */
  function BackSection(section: Section): seq<string> {
    if section.title.Some? && IsConclusionTitle(section.title.value) && |section.paragraphs| > 0 then
      [RenderSection("## " + section.title.value, section.paragraphs)]
    else []
  }


  /** Every text of `xs` is non-empty and starts with a '#' header. */
  predicate HashHeaded(xs: seq<string>) {
    forall i :: 0 <= i < |xs| ==> |xs[i]| > 0 && xs[i][0] == '#'
  }

  lemma HashHeadedAppend(a: seq<string>, b: seq<string>)
    requires HashHeaded(a) && HashHeaded(b)
    ensures HashHeaded(a + b)
  {
    forall i | 0 <= i < |a + b| ensures |(a + b)[i]| > 0 && (a + b)[i][0] == '#' {
      if i < |a| {
        assert (a + b)[i] == a[i];
      } else {
        assert (a + b)[i] == b[i - |a|];
      }
    }
  }

  /** The sections collected from an article, in document order; each one
      is non-empty and starts with a '#' header. */
  function CollectSections(article: Article): (r: seq<string>)
    ensures HashHeaded(r)
  {
    var title := TitlePart(article);
    var abs := AbstractPart(article);
    var body := BodyPart(article);
    var back := BackPart(article);
    forall section ensures HashHeaded(BodySection(section)) && HashHeaded(BackSection(section)) {
      BodySectionHeaded(section);
      BackSectionHeaded(section);
    }
    PartsHashHeaded(article.body, BodySection);
    PartsHashHeaded(article.back, BackSection);
    HashHeadedAppend(title, abs);
    HashHeadedAppend(title + abs, body);
    HashHeadedAppend(title + abs + body, back);
    title + abs + body + back
  }

  /** The extracted text: the sections separated by blank lines, a fixed
      message when there are none, or the parser's error. The fixed message
      appears exactly when nothing was collected, and the article title,
      when there is one, opens the text. */
  function ExtractText(parsed: Result<Article, string>): (r: string)
    ensures parsed.Failure? ==> r == ParseErrorPrefix + parsed.error
    ensures parsed.Success? ==> (r == NoContent <==> CollectSections(parsed.value) == [])
    ensures parsed.Success? && parsed.value.title.Some? ==> "# Title\n" + parsed.value.title.value <= r
    ensures parsed.Success? && CollectSections(parsed.value) != [] ==> r == Join(CollectSections(parsed.value), SectionSeparator)
  {
    match parsed
    case Failure(e) => ParseErrorPrefix + e
    case Success(article) =>
      var sections := CollectSections(article);
      if |sections| == 0 then NoContent
      else
        JoinStartsWithFirst(sections, SectionSeparator);
        assert Join(sections, SectionSeparator)[0] == '#' != NoContent[0];
        Join(sections, SectionSeparator)
  }

  /** Rendering a list of sections is rendering its parts one after the other. */
  lemma {:induction false} PartsAppend(a: seq<Section>, b: seq<Section>, render: Section -> seq<string>)
    ensures Parts(a + b, render) == Parts(a, render) + Parts(b, render)
    decreases |a|
  {
    if |a| == 0 {
      assert a + b == b;
    } else {
      assert (a + b)[1..] == a[1..] + b;
      PartsAppend(a[1..], b, render);
    }
  }

  /** A text is among the rendered parts exactly when one section renders to it. */
  lemma {:induction false} PartsMember(sections: seq<Section>, render: Section -> seq<string>, x: string)
    ensures x in Parts(sections, render) <==> exists i :: 0 <= i < |sections| && x in render(sections[i])
    decreases |sections|
  {
    if |sections| > 0 {
      PartsMember(sections[1..], render, x);
      assert forall i :: 1 <= i < |sections| ==> sections[1..][i - 1] == sections[i];
    }
  }

  /** The collected sections are the title and abstract parts, then the
      body's parts, then the back matter's, in that order. */
  lemma CollectedOrder(article: Article)
    ensures var r := CollectSections(article);
      var h := |TitlePart(article)| + |AbstractPart(article)|;
      var b := |BodyPart(article)|;
      && |r| == h + b + |BackPart(article)|
      && r[..h] == TitlePart(article) + AbstractPart(article)
      && r[h..h + b] == BodyPart(article)
      && r[h + b..] == BackPart(article)
  {
  }

  /** The body contributes exactly its sections that have paragraphs, each
      under its title or `## Section`, between the abstract and the back
      matter. */
  lemma BodyKeepsSectionsWithParagraphs(article: Article, x: string)
    ensures var r := CollectSections(article);
      var h := |TitlePart(article)| + |AbstractPart(article)|;
      var b := |BodyPart(article)|;
      && h + b <= |r|
      && (x in r[h..h + b] <==> exists i ::
        && 0 <= i < |article.body| && |article.body[i].paragraphs| > 0
        && x == RenderSection(if article.body[i].title.Some? then "## " + article.body[i].title.value else "## Section",
                              article.body[i].paragraphs))
  {
    CollectedOrder(article);
    PartsMember(article.body, BodySection, x);
  }

  /** The back matter contributes exactly its conclusion sections that have
      paragraphs, each headed by its own title, after everything else. */
  lemma BackMatterKeepsConclusions(article: Article, x: string)
    ensures var r := CollectSections(article);
      var h := |TitlePart(article)| + |AbstractPart(article)|;
      var b := |BodyPart(article)|;
      && h + b <= |r|
      && (x in r[h + b..] <==> exists i ::
        && 0 <= i < |article.back|
        && article.back[i].title.Some? && IsConclusionTitle(article.back[i].title.value)
        && |article.back[i].paragraphs| > 0
        && x == RenderSection("## " + article.back[i].title.value, article.back[i].paragraphs))
  {
    CollectedOrder(article);
    PartsMember(article.back, BackSection, x);
  }

  /** A text is collected exactly when it is the title part, the abstract
      part, a kept body section or a kept conclusion section. */
  lemma CollectedMember(article: Article, x: string)
    ensures x in CollectSections(article) <==>
      || x in TitlePart(article)
      || x in AbstractPart(article)
      || (exists i ::
        && 0 <= i < |article.body| && |article.body[i].paragraphs| > 0
        && x == RenderSection(if article.body[i].title.Some? then "## " + article.body[i].title.value else "## Section",
                              article.body[i].paragraphs))
      || (exists i ::
        && 0 <= i < |article.back|
        && article.back[i].title.Some? && IsConclusionTitle(article.back[i].title.value)
        && |article.back[i].paragraphs| > 0
        && x == RenderSection("## " + article.back[i].title.value, article.back[i].paragraphs))
  {
    PartsMember(article.body, BodySection, x);
    PartsMember(article.back, BackSection, x);
  }

  /** One more paragraph is appended after a blank line. */
  lemma RenderSectionAppend(header: string, paragraphs: seq<string>, p: string)
    requires |paragraphs| > 0
    ensures RenderSection(header, paragraphs + [p]) == RenderSection(header, paragraphs) + SectionSeparator + p
  {
    JoinAppend(paragraphs, p, SectionSeparator);
  }

  /** One more abstract paragraph is appended after a single space. */
  lemma AbstractAppend(article: Article, p: string)
    requires |article.abstractParagraphs| > 0
    ensures AbstractPart(article.(abstractParagraphs := article.abstractParagraphs + [p]))
         == [AbstractPart(article)[0] + " " + p]
  {
    var paragraphs := article.abstractParagraphs;
    var longer := article.(abstractParagraphs := paragraphs + [p]);
    JoinAppend(paragraphs, p, " ");
    assert AbstractPart(longer) == ["# Abstract\n" + Join(paragraphs + [p], " ")];
    assert AbstractPart(article) == ["# Abstract\n" + Join(paragraphs, " ")];
    assert "# Abstract\n" + (Join(paragraphs, " ") + " " + p) == "# Abstract\n" + Join(paragraphs, " ") + " " + p;
  }

  /** A worked article: an untitled body section, a body section without
      paragraphs, a conclusion and a back-matter section that is not one. */
  const WorkedArticle: Article := Article(
    Some("T"), ["a", "b"],
    [Section(None, ["p", "q"]), Section(Some("Empty"), [])],
    [Section(Some("Conclusions"), ["c"]), Section(Some("Methods"), ["m"])])

  lemma WorkedTitles()
    ensures IsConclusionTitle("Conclusions") && !IsConclusionTitle("Methods")
  {
    assert Lower("Conclusions") == "conclusions";
    assert "conclusion" <= "conclusions";
    assert Lower("Methods") == "methods";
    assert !HasSubstring("methods", "conclusion");
  }

  /** The body keeps only its untitled section, headed `## Section`. */
  lemma WorkedBody()
    ensures BodyPart(WorkedArticle) == ["## Section\np\n\nq"]
  {
    var body := WorkedArticle.body;
    assert body[1..][1..] == [];
    assert BodySection(body[1]) == [];
    assert Join(["p", "q"], SectionSeparator) == "p" + "\n\n" + "q" == "p\n\nq";
    assert "## Section" + "\n" + "p\n\nq" == "## Section\np\n\nq";
    assert BodySection(body[0]) == [RenderSection("## Section", ["p", "q"])];
  }

  /** The back matter keeps only its conclusion. */
  lemma WorkedBack()
    ensures BackPart(WorkedArticle) == ["## Conclusions\nc"]
  {
    var back := WorkedArticle.back;
    WorkedTitles();
    assert back[1..][1..] == [];
    assert BackSection(back[1]) == [];
    assert "## " + "Conclusions" == "## Conclusions";
    assert "## Conclusions" + "\n" + "c" == "## Conclusions\nc";
    assert BackSection(back[0]) == [RenderSection("## Conclusions", ["c"])];
  }

  /** The worked article's collected sections, in document order. */
  lemma WorkedSections()
    ensures CollectSections(WorkedArticle) == ["# Title\nT", "# Abstract\na b", "## Section\np\n\nq", "## Conclusions\nc"]
  {
    WorkedBody();
    WorkedBack();
    assert Join(["a", "b"], " ") == "a" + " " + "b" == "a b";
    assert "# Abstract\n" + "a b" == "# Abstract\na b";
    assert WorkedArticle.title == Some("T");
    assert "# Title\n" + "T" == "# Title\nT";
    assert TitlePart(WorkedArticle) == ["# Title\nT"];
    assert AbstractPart(WorkedArticle) == ["# Abstract\na b"];
  }

  /** The worked article's sections joined by blank lines. */
  lemma WorkedJoin()
    ensures Join(["# Title\nT", "# Abstract\na b", "## Section\np\n\nq", "## Conclusions\nc"], SectionSeparator)
      == "# Title\nT" + "\n\n" + "# Abstract\na b" + "\n\n" + "## Section\np\n\nq" + "\n\n" + "## Conclusions\nc"
  {
    var parts := ["# Title\nT", "# Abstract\na b", "## Section\np\n\nq", "## Conclusions\nc"];
    assert parts[1..] == ["# Abstract\na b", "## Section\np\n\nq", "## Conclusions\nc"];
    assert parts[1..][1..] == ["## Section\np\n\nq", "## Conclusions\nc"];
    assert parts[1..][1..][1..] == ["## Conclusions\nc"];
  }

  /** The worked article's text: the title, the abstract with its
      paragraphs separated by a space, the untitled body section headed
      `## Section` with its paragraphs separated by a blank line, and the
      conclusion, separated by blank lines. The body section without
      paragraphs and the back-matter section not titled as a conclusion are
      dropped. */
  lemma ExtractTextExample()
    ensures ExtractText(Success(WorkedArticle))
      == "# Title\nT" + "\n\n" + "# Abstract\na b" + "\n\n" + "## Section\np\n\nq" + "\n\n" + "## Conclusions\nc"
  {
    WorkedSections();
    WorkedJoin();
  }

  /** A kept body section is rendered under a '#' header. */
  lemma BodySectionHeaded(section: Section)
    ensures HashHeaded(BodySection(section))
  {
    assert "#" <= "## Section";
    assert section.title.Some? ==> "#" <= "## " + section.title.value;
  }

  /** A kept back-matter section is rendered under a '#' header. */
  lemma BackSectionHeaded(section: Section)
    ensures HashHeaded(BackSection(section))
  {
    assert section.title.Some? ==> "#" <= "## " + section.title.value;
  }

  /** Sections whose renderings start with '#' headers give parts that do. */
  lemma {:induction false} PartsHashHeaded(sections: seq<Section>, render: Section -> seq<string>)
    requires forall section :: HashHeaded(render(section))
    ensures HashHeaded(Parts(sections, render))
    decreases |sections|
  {
    if |sections| > 0 {
      PartsHashHeaded(sections[1..], render);
      HashHeadedAppend(render(sections[0]), Parts(sections[1..], render));
    }
  }
}

=== FILE: pombase.dfy ===
/** The PomBase gene ingest: every row of the gene file becomes one fission
    yeast `Gene` node. */
module PombaseGene {
  import opened Wrappers
  import opened Strings
  import opened Biolink
  import Sink

  /** The columns of the PomBase gene file the transform reads. */
  datatype Row = Row(curie: string, geneSystematicId: string, synonyms: string, uniProtAccession: string)

  const PombaseInfores: string := "infores:pombase"
  const FissionYeastTaxon: string := "NCBITaxon:4896"
  const UniProtPrefix: string := "UniProtKB:"

  /** The node built for a row. The synonym list is assigned at
      construction and, for a non-empty column, assigned again with the same
      value; the cross-reference is set only when an accession is given. */
  function GeneOf(row: Row): (g: Gene)
    ensures g.id == row.curie
    ensures g.symbol == Some(row.geneSystematicId) && g.name == Some(row.geneSystematicId)
    ensures g.inTaxon == Some([FissionYeastTaxon]) && g.providedBy == Some([PombaseInfores])
    ensures g.xref.Some? <==> row.uniProtAccession != ""
    ensures g.xref.Some? ==> g.xref.value == [UniProtPrefix + row.uniProtAccession]
    ensures g.synonym.Some? && Join(g.synonym.value, ",") == row.synonyms
    ensures g.synonym.Some? && |g.synonym.value| == Count(row.synonyms, ',') + 1
    ensures forall i :: 0 <= i < |g.synonym.value| ==> ',' !in g.synonym.value[i]
    ensures row.synonyms == "" ==> g.synonym == Some([""])
    ensures g.source == None
  {
    JoinSplit(row.synonyms, ',');
    SplitCount(row.synonyms, ',');
    var gene := BareGene(row.curie).(
      symbol := Some(row.geneSystematicId),
      name := Some(row.geneSystematicId),
      synonym := Some(Split(row.synonyms, ',')),
      inTaxon := Some([FissionYeastTaxon]),
      providedBy := Some([PombaseInfores]));
    var gene := if row.uniProtAccession != "" then gene.(xref := Some([UniProtPrefix + row.uniProtAccession])) else gene;
    var gene := if row.synonyms != "" then gene.(synonym := Some(Split(row.synonyms, ','))) else gene;
    gene
  }

  /** What one row writes: its gene, alone. */
  function Transform(row: Row): (written: seq<Entity>)
    ensures |written| == 1 && written[0].Node? && written[0].gene.id == row.curie
  {
    [Node(GeneOf(row))]
  }

  /** A run over a row source. */
  function Run(rows: seq<Row>): seq<Entity>
  {
    Sink.Run(rows, (i: nat, row: Row) => Transform(row))
  }

  /** A run writes exactly one gene per row, in row order. */
  lemma RunOneGenePerRow(rows: seq<Row>)
    ensures |Run(rows)| == |rows|
    ensures forall i :: 0 <= i < |rows| ==> Run(rows)[i] == Node(GeneOf(rows[i]))
  {
    var f := (i: nat, row: Row) => Transform(row);
    assert forall i :: 0 <= i < |rows| ==> f(i, rows[i]) == [Node(GeneOf(rows[i]))];
    Sink.RunOfSingletons(rows, f);
  }

  /** Synonym splitting keeps empty pieces where they stand. */
  lemma SynonymsKeepEmptyPieces()
    ensures GeneOf(Row("PomBase:SPAC1", "SPAC1", "a,,b", "")).synonym == Some(["a", "", "b"])
    ensures GeneOf(Row("PomBase:SPAC1", "SPAC1", "", "")).xref == None
  {
    var pieces := ["a", "", "b"];
    assert Join(pieces, ",") == "a,,b";
    SplitJoin(pieces, ',');
  }
}

=== FILE: sink.dfy ===
/** The write sink every transform shares. `write(e1, ..., en)` appends the
    entities in order to one list, nothing is deduplicated, and a run that
    writes nothing leaves the list empty. A run over a row source is
    therefore the concatenation of the per-row outputs in row order. The
    transform receives each row together with its position, which is how a
    run hands each row its own fresh identifiers. */
module Sink {

  /** Everything written by running `transform` over `rows`: nothing is
      written that some row did not write. */
  function Run<R, E>(rows: seq<R>, transform: (nat, R) -> seq<E>): (r: seq<E>)
    ensures forall e :: e in r ==> exists i :: 0 <= i < |rows| && e in transform(i, rows[i])
    decreases |rows|
  {
    if |rows| == 0 then []
    else
      assert forall i :: 0 <= i < |rows| - 1 ==> rows[..|rows| - 1][i] == rows[i];
      Run(rows[..|rows| - 1], transform) + transform(|rows| - 1, rows[|rows| - 1])
  }

  /** Running one more row appends that row's output and keeps the rest. */
  lemma RunExtend<R, E>(rows: seq<R>, transform: (nat, R) -> seq<E>, i: nat)
    requires i < |rows|
    ensures Run(rows[..i + 1], transform) == Run(rows[..i], transform) + transform(i, rows[i])
  {
    assert rows[..i + 1][..i] == rows[..i];
  }

  /** The sink stays empty exactly when no row writes anything. */
  lemma {:induction false} RunEmptyIff<R, E>(rows: seq<R>, transform: (nat, R) -> seq<E>)
    ensures Run(rows, transform) == [] <==> forall i :: 0 <= i < |rows| ==> transform(i, rows[i]) == []
    decreases |rows|
  {
    if |rows| > 0 {
      var n := |rows| - 1;
      RunEmptyIff(rows[..n], transform);
      assert forall i :: 0 <= i < n ==> rows[..n][i] == rows[i];
    }
  }

  /** An entity is written exactly when some row's output holds it. */
  lemma {:induction false} RunMember<R, E>(rows: seq<R>, transform: (nat, R) -> seq<E>, e: E)
    ensures e in Run(rows, transform) <==> exists i :: 0 <= i < |rows| && e in transform(i, rows[i])
    decreases |rows|
  {
    if |rows| > 0 {
      var n := |rows| - 1;
      RunMember(rows[..n], transform, e);
      assert forall i :: 0 <= i < n ==> rows[..n][i] == rows[i];
    }
  }

  /** When every row writes exactly one entity, the i-th entity written is
      the i-th row's. */
  lemma {:induction false} RunOfSingletons<R, E>(rows: seq<R>, transform: (nat, R) -> seq<E>)
    requires forall i :: 0 <= i < |rows| ==> |transform(i, rows[i])| == 1
    ensures |Run(rows, transform)| == |rows|
    ensures forall i :: 0 <= i < |rows| ==> Run(rows, transform)[i] == transform(i, rows[i])[0]
    decreases |rows|
  {
    if |rows| > 0 {
      var n := |rows| - 1;
      assert forall i :: 0 <= i < n ==> rows[..n][i] == rows[i];
      RunOfSingletons(rows[..n], transform);
    }
  }

  /** The row loop of an ingest script: fetch rows until the source is
      exhausted and append whatever each row writes. */
  method Drive<R, E>(rows: seq<R>, transform: (nat, R) -> seq<E>) returns (written: seq<E>)
    ensures written == Run(rows, transform)
  {
    written := [];
    var i := 0;
    while i < |rows|
      invariant 0 <= i <= |rows|
      invariant written == Run(rows[..i], transform)
    {
      RunExtend(rows, transform, i);
      written := written + transform(i, rows[i]);
      i := i + 1;
    }
    assert rows[..|rows|] == rows;
  }
}

=== FILE: strings.dfy ===
/** The few Python `str` operations the ingest scripts rely on, restricted
    to ASCII where case or character classes matter. A string is a
    `seq<char>`. */
module Strings {

  /** Index of the first occurrence of `c` in `s` (Python's `s.index(c)`). */
  function IndexOf(s: string, c: char): (k: nat)
    requires c in s
    ensures k < |s| && s[k] == c
    ensures c !in s[..k]
  {
    if s[0] == c then 0
    else
      assert s == [s[0]] + s[1..];
      var k' := IndexOf(s[1..], c);
      assert s[..k' + 1] == [s[0]] + s[1..][..k'];
      k' + 1
  }

  /** The text after the first `c`: Python's `s.split(c, 1)[1]`. */
  function After(s: string, c: char): (r: string)
    requires c in s
    ensures s == s[..IndexOf(s, c)] + [c] + r
  {
    s[IndexOf(s, c) + 1..]
  }

  /** Number of occurrences of `c` in `s`. */
  function Count(s: string, c: char): nat
  {
    if |s| == 0 then 0
    else (if s[0] == c then 1 else 0) + Count(s[1..], c)
  }

  /** Python's `s.split(sep)` for a one-character separator: the pieces
      between separators, empty pieces kept, never an empty list. */
  function Split(s: string, sep: char): (parts: seq<string>)
    ensures |parts| >= 1
    ensures forall i :: 0 <= i < |parts| ==> sep !in parts[i]
    decreases |s|
  {
    if sep !in s then [s]
    else
      var k := IndexOf(s, sep);
      [s[..k]] + Split(s[k + 1..], sep)
  }

  /** Python's `sep.join(parts)`. */
  function Join(parts: seq<string>, sep: string): string
  {
    if |parts| == 0 then ""
    else if |parts| == 1 then parts[0]
    else parts[0] + sep + Join(parts[1..], sep)
  }

  /** A non-empty join starts with its first part. */
  lemma JoinStartsWithFirst(parts: seq<string>, sep: string)
    requires |parts| > 0
    ensures parts[0] <= Join(parts, sep)
  {
  }

  /** Joining one more part adds the separator and that part. */
  lemma {:induction false} JoinAppend(parts: seq<string>, x: string, sep: string)
    requires |parts| > 0
    ensures Join(parts + [x], sep) == Join(parts, sep) + sep + x
    decreases |parts|
  {
    if |parts| == 1 {
      assert (parts + [x])[1..] == [x];
    } else {
      assert (parts + [x])[1..] == parts[1..] + [x];
      JoinAppend(parts[1..], x, sep);
    }
  }

  lemma {:induction false} CountAppend(a: string, b: string, c: char)
    ensures Count(a + b, c) == Count(a, c) + Count(b, c)
    decreases |a|
  {
    if |a| == 0 {
      assert a + b == b;
    } else {
      assert (a + b)[1..] == a[1..] + b;
      CountAppend(a[1..], b, c);
    }
  }

  lemma {:induction false} CountAbsent(s: string, c: char)
    requires c !in s
    ensures Count(s, c) == 0
    decreases |s|
  {
    if |s| > 0 {
      assert c !in s[1..] by {
        forall i | 0 <= i < |s[1..]| ensures s[1..][i] != c {
          assert s[1..][i] == s[i + 1];
        }
      }
      CountAbsent(s[1..], c);
    }
  }

  /** Splitting yields one more piece than there are separators. */
  lemma {:induction false} SplitCount(s: string, sep: char)
    ensures |Split(s, sep)| == Count(s, sep) + 1
    decreases |s|
  {
    if sep !in s {
      CountAbsent(s, sep);
    } else {
      var k := IndexOf(s, sep);
      assert s == s[..k] + ([sep] + s[k + 1..]);
      CountAppend(s[..k], [sep] + s[k + 1..], sep);
      CountAbsent(s[..k], sep);
      CountAppend([sep], s[k + 1..], sep);
      SplitCount(s[k + 1..], sep);
    }
  }

  /** A split is a single piece exactly when the separator is absent. */
  lemma SplitSingletonIff(s: string, sep: char)
    ensures |Split(s, sep)| == 1 <==> sep !in s
  {
  }

  /** Joining the pieces with the separator gives the input back. */
  lemma {:induction false} JoinSplit(s: string, sep: char)
    ensures Join(Split(s, sep), [sep]) == s
    decreases |s|
  {
    if sep in s {
      var k := IndexOf(s, sep);
      var rest := Split(s[k + 1..], sep);
      assert Split(s, sep) == [s[..k]] + rest;
      JoinSplit(s[k + 1..], sep);
      assert ([s[..k]] + rest)[1..] == rest;
      assert s == s[..k] + [sep] + s[k + 1..];
    }
  }

  lemma IndexOfAfterPrefix(a: string, c: char, b: string)
    requires c !in a
    ensures c in a + [c] + b
    ensures IndexOf(a + [c] + b, c) == |a|
  {
    var s := a + [c] + b;
    assert s[|a|] == c;
    assert s[..|a|] == a;
  }

  /** What follows the first separator, when none precedes it. */
  lemma AfterFirst(a: string, c: char, b: string)
    requires c !in a
    ensures c in a + [c] + b
    ensures After(a + [c] + b, c) == b
  {
    IndexOfAfterPrefix(a, c, b);
    assert (a + [c] + b)[|a| + 1..] == b;
  }

  /** Splitting at a first separator peels off the piece before it. */
  lemma SplitAtFirst(a: string, sep: char, b: string)
    requires sep !in a
    ensures Split(a + [sep] + b, sep) == [a] + Split(b, sep)
  {
    var s := a + [sep] + b;
    IndexOfAfterPrefix(a, sep, b);
    assert s[..|a|] == a;
    assert s[|a| + 1..] == b;
  }

  /** Splitting pieces that were joined with a separator none of them
      contains gives the pieces back: splitting is idempotent on an
      already-split sequence. */
  lemma {:induction false} SplitJoin(parts: seq<string>, sep: char)
    requires |parts| >= 1
    requires forall i :: 0 <= i < |parts| ==> sep !in parts[i]
    ensures Split(Join(parts, [sep]), sep) == parts
    decreases |parts|
  {
    if |parts| > 1 {
      var tail := Join(parts[1..], [sep]);
      assert Join(parts, [sep]) == parts[0] + [sep] + tail;
      SplitAtFirst(parts[0], sep, tail);
      SplitJoin(parts[1..], sep);
      assert parts == [parts[0]] + parts[1..];
    }
  }

  /** Every `from` replaced by `to`: Python's `s.replace(from, to)` for a
      one-character pattern. */
  function ReplaceChar(s: string, from: char, to: char): (r: string)
    ensures |r| == |s|
    ensures forall i :: 0 <= i < |s| ==> r[i] == (if s[i] == from then to else s[i])
  {
    seq(|s|, i requires 0 <= i < |s| => if s[i] == from then to else s[i])
  }

  lemma ReplaceCharAppend(a: string, b: string, from: char, to: char)
    ensures ReplaceChar(a + b, from, to) == ReplaceChar(a, from, to) + ReplaceChar(b, from, to)
  {
  }

  lemma ReplaceCharAbsent(s: string, from: char, to: char)
    requires from !in s
    ensures ReplaceChar(s, from, to) == s
  {
  }

  predicate IsLowerAscii(c: char) {
    'a' <= c <= 'z'
  }

  predicate IsUpperAscii(c: char) {
    'A' <= c <= 'Z'
  }

  predicate IsDigitAscii(c: char) {
    '0' <= c <= '9'
  }

  function LowerChar(c: char): (d: char)
    ensures !IsUpperAscii(d)
    ensures IsUpperAscii(c) ==> IsLowerAscii(d) && d as int == c as int + 32
    ensures !IsUpperAscii(c) ==> d == c
  {
    if IsUpperAscii(c) then (c as int + 32) as char else c
  }

  /** Python's `s.lower()` restricted to ASCII letters. */
  function Lower(s: string): (r: string)
    ensures |r| == |s|
    ensures forall i :: 0 <= i < |s| ==> r[i] == LowerChar(s[i])
  {
    seq(|s|, i requires 0 <= i < |s| => LowerChar(s[i]))
  }

  lemma LowerAppend(a: string, b: string)
    ensures Lower(a + b) == Lower(a) + Lower(b)
  {
  }

  /** Python's `sub in s`. */
  predicate HasSubstring(s: string, sub: string)
    decreases |s|
  {
    sub <= s || (|s| > 0 && HasSubstring(s[1..], sub))
  }

  /** Python's `s.replace(pattern, replacement)` for a non-empty pattern: occurrences
      are found left to right and do not overlap. */
  function ReplaceAll(s: string, pattern: string, replacement: string): (r: string)
    requires |pattern| > 0
    ensures !HasSubstring(s, pattern) ==> r == s
    ensures |replacement| <= |pattern| ==> |r| <= |s|
    ensures HasSubstring(s, pattern) && |replacement| < |pattern| ==> |r| < |s|
    decreases |s|
  {
    if |s| == 0 then ""
    else if pattern <= s then replacement + ReplaceAll(s[|pattern|..], pattern, replacement)
    else [s[0]] + ReplaceAll(s[1..], pattern, replacement)
  }

  /** No occurrence starts within `a`: then none starts within its tail either. */
  lemma NoMatchInTail(a: string, pattern: string, b: string)
    requires |a| > 0
    requires forall i :: 0 <= i < |a| ==> !(pattern <= (a + pattern + b)[i..])
    ensures forall i :: 0 <= i < |a[1..]| ==> !(pattern <= (a[1..] + pattern + b)[i..])
  {
    var s := a + pattern + b;
    forall i | 0 <= i < |a[1..]| ensures !(pattern <= (a[1..] + pattern + b)[i..]) {
      assert (a[1..] + pattern + b)[i..] == s[i + 1..];
    }
  }

  /** An occurrence at the very start is replaced and the scan resumes after it. */
  lemma ReplaceAtStart(pattern: string, replacement: string, b: string)
    requires |pattern| > 0
    ensures ReplaceAll(pattern + b, pattern, replacement) == replacement + ReplaceAll(b, pattern, replacement)
  {
    assert (pattern + b)[|pattern|..] == b;
  }

  /** A first character that starts no occurrence is kept. */
  lemma ReplaceKeepsFirst(s: string, pattern: string, replacement: string)
    requires |pattern| > 0 && |s| > 0 && !(pattern <= s)
    ensures ReplaceAll(s, pattern, replacement) == [s[0]] + ReplaceAll(s[1..], pattern, replacement)
  {
  }

  /** Replacement at the first occurrence: the text before it is kept, the
      occurrence becomes the replacement, and the scan resumes right after
      the occurrence. */
  lemma {:induction false} ReplaceAtFirst(a: string, pattern: string, replacement: string, b: string)
    requires |pattern| > 0
    requires forall i :: 0 <= i < |a| ==> !(pattern <= (a + pattern + b)[i..])
    ensures ReplaceAll(a + pattern + b, pattern, replacement) == a + replacement + ReplaceAll(b, pattern, replacement)
    decreases |a|
  {
    if |a| == 0 {
      assert a + pattern + b == pattern + b;
      ReplaceAtStart(pattern, replacement, b);
    } else {
      var s := a + pattern + b;
      var rest := ReplaceAll(b, pattern, replacement);
      calc {
        ReplaceAll(s, pattern, replacement);
        { assert s[0..] == s;
          ReplaceKeepsFirst(s, pattern, replacement); }
        [a[0]] + ReplaceAll(s[1..], pattern, replacement);
        { assert s[1..] == a[1..] + pattern + b; }
        [a[0]] + ReplaceAll(a[1..] + pattern + b, pattern, replacement);
        { NoMatchInTail(a, pattern, b);
          ReplaceAtFirst(a[1..], pattern, replacement, b); }
        [a[0]] + (a[1..] + replacement + rest);
        { assert a == [a[0]] + a[1..]; }
        a + replacement + rest;
      }
    }
  }
}

=== FILE: wrappers.dfy ===
/** Optional values and outcomes. `Option` stands for Python's "a value or
    None"; `Result` stands for a step that either produces a value or stops
    the script with an error, and supports the `:-` operator so that a
    failing step ends the enclosing computation with that error. */
module Wrappers {

  datatype Option<+T> = None | Some(value: T)

  datatype Result<+T, +E> = Success(value: T) | Failure(error: E) {

    /** The step stopped with an error. */
    predicate IsFailure() {
      Failure?
    }

    /** The same error, as an outcome of another value type. */
    function PropagateFailure<U>(): Result<U, E>
      requires Failure?
    {
      Failure(error)
    }

    /** The value of a successful step. */
    function Extract(): T
      requires Success?
    {
      value
    }
  }
}
